=== FILE: README.md ===
# swarm-gateway decision logic in Dafny

This project models the decision logic of swarm-gateway, an HTTP gateway that
sits in front of a Swarm Bee node. The gateway:

- proxies chunk, bytes, bzz, feed and single-owner-chunk requests to the node;
- resolves `<label>.<hostname>` subdomains to `bzz/<target>` paths;
- keeps a postage stamp available for uploads, buying or topping up batches;
- gates content by per-instance default rules, an allow-list of user agents
  and per-hash moderation rules.

Every effect is an input or an oracle. That covers the Bee node's HTTP API,
the MySQL tables, keccak-256, reference parsing, the clock and randomness. The
decisions themselves are pure functions over immutable datatypes, with
contracts and lemmas stating what the gateway promises.

Modules follow the source files:

| module | Dafny file | source file | models |
|---|---|---|---|
| `Wrappers` | wrappers.dfy | — | `Option` and `Result` |
| `Text` | text.dfy | — | string helpers: substring search, lower-casing, join/split, counting, decimal rendering |
| `TtlCache` | ttl_cache.dfy | — | the cache-aside `Cache.get(key, ttl, producer)` the gateway relies on |
| `Config` | config.dfy | src/config.ts | configuration derived from environment variables |
| `Stamp` | stamp.dfy | src/stamp.ts | the postage stamp manager: start-up mode, the stamp getter, one renewal iteration |
| `BzzLink` | bzz_link.dfy | src/bzz-link.ts | subdomain resolution |
| `Proxy` | proxy.dfy | src/proxy.ts | the proxy pipeline and the subdomain middleware |
| `Sql` | sql.dfy | src/database/Schema.ts, src/database/Database.ts | SELECT clause, INSERT and UPDATE statement construction |
| `Challenge` | challenge.dfy | src/challenge.ts | the proof-of-work challenge |
| `Readiness` | readiness.dfy | src/readiness.ts | the readiness verdict |
| `Server` | server.dfy | src/server.ts | CORS, authorization, the moderation guard and routes, the proxy wiring |

Conventions used throughout:

- JavaScript numbers are `real`s.
- JavaScript truthiness is spelled out: `Config.Truthy` means a string is present and not empty.
- Header maps are keyed by lower-case names, as Node delivers them.
- The clock is a parameter `now`, in milliseconds.

Two behaviours of the code worth noting:

- The settings lookup of the access gate is not fail-open. A database error while reading the settings row propagates and the request is answered 500 (the producer at src/proxy.ts:155-161 catches nothing, and the outer handler at lines 213-216 sends 500). Proxy.SettingsErrorIs500 states it.
- A purchase that fails late in a stamp iteration does not undo an adoption made earlier in the same iteration (src/stamp.ts:125 assigns `this.stamp` before later steps can throw).

## Model

| member | source | states |
|---|---|---|
| TtlCache.Get | src/proxy.ts:155-173 | a live entry is served without running the producer; otherwise the producer's value is returned and stored, its error propagates with the cache unchanged; other keys are untouched |
| TtlCache.ReuseWithinTtl | src/bzz-link.ts:8-10 | a value stored by a miss is served again, without producing, to every lookup of the key within the time-to-live |
| Config.LogLevel | src/config.ts:60-73 | the level is always one of the six supported levels; it is `LOG_LEVEL` exactly when that names a supported level, otherwise `info` |
| Config.GetAppConfig | src/config.ts:75-85 | hostname and node URL fall back to `localhost` and `http://localhost:1633` when unset or empty; pin removal is off only for a set value other than `true`; secrets, instance name and homepage are passed through |
| Config.GetServerConfig | src/config.ts:87-89 | the port is 3000 when unset or empty, otherwise the number the text denotes; the hostname is the app config's |
| Config.GetStampConfig | src/config.ts:91-101 | fails exactly when a numeric variable holds a non-number; amount and depth are the parsed numbers when set and absent otherwise; each threshold is the parsed number when that is non-zero, and 3600 s or 0.85 when the variable is absent or zero; keep-alive holds iff the variable is exactly `true`; the hard-coded stamp is the variable or empty |
| Config.EmptyEnvironmentDefaults | src/config.ts:63-101 | with no variable set every record takes its defaults: port 3000, thresholds 3600 s and 0.85, no keep-alive, empty hard-coded stamp, level `info` |
| Config.EmptyActsAsAbsent | src/config.ts:70-99 | a variable read through `\|\|` or truthiness that is set to the empty string yields the same configuration as an absent one |
| Config.ZeroThresholdsUseDefaults | src/config.ts:96-98 | threshold variables holding zero fall back to 3600 seconds and 0.85 |
| Config.StampConfigReadsOwnVariables | src/config.ts:91-101 | the stamp configuration depends on the six stamp variables only: environments agreeing on them configure alike, failure included |
| Stamp.Start | src/stamp.ts:80-98 | a non-empty hard-coded stamp selects hard-coded mode; otherwise truthy amount and depth select auto-buy; otherwise the manager is disabled; only hard-coded mode sets a stamp |
| Stamp.GetPostageStamp | src/stamp.ts:100-109 | succeeds iff a stamp is held, returning its hex; otherwise fails with `No postage stamp` |
| Stamp.StampAfterStart | src/stamp.ts:80-109 | right after start-up a stamp is available iff a hard-coded stamp is configured and parses |
| Stamp.ModeFromEnvironment | src/stamp.ts:80-98 | from the environment: a non-empty `POSTAGE_STAMP` gives hard-coded mode; otherwise auto-buy iff amount and depth hold non-zero numbers; the manager is enabled iff it is not disabled |
| Stamp.Candidates | src/stamp.ts:116-118 | a listed batch is a candidate iff it is usable, of the configured depth and below the usage threshold |
| Stamp.MaxHeadroom | src/stamp.ts:124 | the pick is a candidate, and no candidate has more headroom (`1 - usage`) |
| Stamp.BuyStep | src/stamp.ts:161-172 | one purchase call; on success the bought id becomes the stamp and is recorded as adopted; on failure the stamp is unchanged and the error ends the run |
| Stamp.GetStep | src/stamp.ts:128 | after an earlier failure nothing happens; otherwise one re-fetch of the held stamp, whose failure ends the run |
| Stamp.TopUpStep | src/stamp.ts:150-159 | one top-up call of the held stamp by the amount; the stamp is never replaced |
| Stamp.BuyKeepsSound | src/stamp.ts:161-172 | a purchase keeps the iteration invariant: every adopted id came from the listing or a purchase, and the held stamp is the last adoption |
| Stamp.GetKeepsSound | src/stamp.ts:128 | a re-fetch keeps the iteration invariant and adds no top-up |
| Stamp.TopUpKeepsSound | src/stamp.ts:137 | a top-up keeps the iteration invariant and adds exactly one top-up |
| Stamp.ChooseStep | src/stamp.ts:121-126 | no candidate: exactly one purchase for lack of valid stamps; otherwise a candidate of maximal headroom is adopted without any call |
| Stamp.UsageStep | src/stamp.ts:128-133 | usage below the threshold changes nothing; otherwise one purchase (reason: used up) followed by a re-fetch of the new stamp |
| Stamp.TopUpThenGet | src/stamp.ts:137-138 | the keep-alive branch keeps the invariant, the stamp and the purchase count, makes no purchase and exactly one top-up of the held stamp |
| Stamp.BuyThenGet | src/stamp.ts:140-141 | the replacement branch keeps the invariant, makes exactly one purchase (reason: about to expire) and no top-up |
| Stamp.ExpiryStep | src/stamp.ts:135-143 | enough time left changes nothing; otherwise keep-alive tops up the same stamp and any other setting buys a replacement; never both |
| Stamp.Prepare | src/stamp.ts:121-133 | after choosing, re-fetching and the used-up check, the invariant holds with at most 2 purchases, no top-up and no expiry purchase; a failed first step ends the run there |
| Stamp.Renew | src/stamp.ts:121-143 | the steps run in source order, each skipped after a failure; at most 3 purchases and 1 top-up, and a top-up excludes the expiry purchase |
| Stamp.ManageStamps | src/stamp.ts:111-148 | an iteration that does not fail holds an adopted stamp; the stamp after it is the last adoption, or the previous one; at most 3 purchases and 1 top-up; a failed listing adopts nothing |
| Stamp.NothingUsableBuys | src/stamp.ts:121-122 | with no candidate, the call after the listing is the purchase and its id is the first adoption |
| Stamp.LeastUsedAdopted | src/stamp.ts:123-125 | with candidates, the first adoption is a lowest-usage candidate and no purchase precedes it |
| Stamp.HealthyCandidateKept | src/stamp.ts:128-143 | a candidate with room and time left is kept with no purchase and no top-up |
| Stamp.UsedUpReplacedOnce | src/stamp.ts:130-133 | a stamp found used up is replaced by exactly one purchase, which is adopted |
| Stamp.ExpiringToppedUp | src/stamp.ts:136-138 | with keep-alive an expiring stamp is topped up by the amount and stays the stamp |
| Stamp.ExpiringReplaced | src/stamp.ts:139-141 | without keep-alive an expiring stamp is replaced by a purchase, with no top-up |
| Stamp.FailedRefetchKeepsChoice | src/stamp.ts:125-128 | a failed re-fetch ends the iteration, but the candidate adopted at line 125 stays the stamp |
| BzzLink.SubdomainToBzz | src/bzz-link.ts:7-19 | resolution fails iff the cached rewrite lookup fails; the cache after it is the cache lookup's |
| BzzLink.Precedence | src/bzz-link.ts:11-18 | a seen rewrite gives its target; otherwise a parsable reference gives its hex; otherwise `<label>.eth`; a parse failure never becomes an error |
| BzzLink.SharedCacheKey | src/bzz-link.ts:8-10 | after a fresh lookup for one label, any label resolved within a minute sees that row, even a missing one, and its own row is not looked up |
| BzzLink.ForeignTargetServed | src/bzz-link.ts:8-13 | a label resolved within a minute of another whose rewrite was found resolves to that other label's target |
| BzzLink.KeyForInjective | src/bzz-link.ts:8 | per-label cache keys of distinct labels differ |
| BzzLink.SubdomainToBzzKeyed | src/bzz-link.ts:7-19 | the same precedence as the source, with the lookup cached under the label's own key |
| BzzLink.KeyedAgreesWithShared | src/bzz-link.ts:7-19 | when the label's own entry is live exactly when the shared one is, and holds the same row, the keyed and the shared resolution give the same target |
| BzzLink.KeyedLabelsIndependent | src/bzz-link.ts:8-10 | with per-label keys, resolving one label never changes how another resolves afterwards |
| BzzLink.KeyedOwnTarget | src/bzz-link.ts:11-13 | with per-label keys, a fresh lookup that finds a rewrite resolves to that rewrite's own target |
| Proxy.PrepareHeaders | src/proxy.ts:89-96 | the pin header is dropped when configured and otherwise kept; a POST through an enabled manager carries the stamp header, or fails when there is no stamp; no other header changes |
| Proxy.Call | src/proxy.ts:97-106 | a node answer of status 500 or more becomes a failure; any other answer is passed through |
| Proxy.Fetch | src/proxy.ts:97-124 | the `.html` probe is sent iff the first answer is 404 or 3xx; the probe's answer replaces the first only when it is 2xx; a failing call fails the fetch |
| Proxy.IsHtml | src/proxy.ts:137-149 | HTML iff the content type is exactly `text/html`, or the lower-cased disposition contains `.htm`, or the lower-cased first 50 body characters contain `<!doctype html` |
| Proxy.Classify | src/proxy.ts:151-153 | HTML answers get content type `text/html`; status, body and every other header are unchanged; other answers are untouched |
| Proxy.SettingsSource | src/proxy.ts:155-161 | without an instance name, or with no row for it, the defaults (websites denied, files allowed); a stored row otherwise; a database error propagates |
| Proxy.Identifier | src/proxy.ts:182-184 | the long `bah…` token when one is found, otherwise the 64-digit hex token |
| Proxy.Decide | src/proxy.ts:163-193 | allowed iff a listed user agent matches, or the baseline allows, or the identifier's rule says allow; the rule store is read only without an agent match under a denying baseline with an identifier |
| Proxy.ForbiddenLocation | src/proxy.ts:195-201 | the redirect goes to `/forbidden`, with `?hash=` exactly when an identifier exists |
| Proxy.ForbiddenLocationRoundTrip | src/proxy.ts:196-199 | the identifier is recovered from the redirect target; without one the target is bare `/forbidden` |
| Proxy.Sanitize | src/proxy.ts:204-210 | a header survives iff it is not one of the seven stripped names, with its value unchanged |
| Proxy.FetchAndRespond | src/proxy.ts:80-217 | at most two node calls; a fetched answer other than the node's not-found answer is judged by the gate; a relayed answer carries no stripped header; a denial redirects under `/forbidden`; the not-found page reads no rule and leaves the caches unchanged; every node call carries the request's method, query and body |
| Proxy.Gate | src/proxy.ts:137-216 | a relay carries the node's status and body with classified, sanitised headers; a denial redirects under `/forbidden`; the answer is 500 exactly when the settings lookup fails, and then no rule is read |
| Proxy.GateFollowsRule | src/proxy.ts:163-202 | given the cached settings and agents, the gate relays iff `Decide` allows, and otherwise redirects to the location of the identifier |
| Proxy.DefaultsWithoutInstance | src/proxy.ts:20-25 | without an instance name and with no live settings entry, non-HTML content is always relayed and HTML only through a matching agent or an allow rule |
| Proxy.StoredSettingsGovern | src/proxy.ts:155-163 | a stored settings row of the configured instance is the baseline the gate applies, and it is cached for a minute |
| Proxy.SettingsErrorIs500 | src/proxy.ts:155-216 | a database error reading the instance's settings row, with no live cached settings, is answered 500 with no rule read and no cache change |
| Proxy.FallbackServed | src/proxy.ts:108-124 | after a 404 or 3xx first answer, a 2xx probe answer is the one the gate judges; a relay carries its status and body |
| Proxy.NotFoundShortCircuit | src/proxy.ts:126-135 | a final 404 whose first 100 characters hold the node's not-found phrase gives the not-found page, with no cache touched |
| Proxy.HandleGet | src/proxy.ts:66-74 | a path containing `bzz/` followed by 64 zeros gets 400 with no node call; any other GET goes through the pipeline |
| Proxy.HandlePost | src/proxy.ts:75-77 | an enabled manager without a stamp gives 500 before any node call; with a stamp every node call carries it |
| Proxy.IndexFrom | src/proxy.ts:41 | the first occurrence of the needle at or after the start position, or none when there is none |
| Proxy.Before | src/proxy.ts:41 | the part of the host in front of the first occurrence of the configured hostname, or empty when it does not occur |
| Proxy.ProxiedPath | src/proxy.ts:49-54 | a resolved target without outer slashes and a request path `/rest` are proxied as `bzz/<target>/<rest>` |
| Proxy.TrimSlashesKeepsMiddle | src/proxy.ts:54 | a segment joined into a URL loses only its outer slashes: what is kept is one run of the segment with nothing but slashes before and after it |
| Proxy.HandleSubdomain | src/proxy.ts:40-65 | only a GET to a non-empty subdomain of the configured hostname is handled; the label (minus its trailing dot) is resolved and `bzz/<target>/<path>` is proxied; a resolution failure gives 500 with no node call |
| Proxy.SubdomainSkipsBadPathCheck | src/proxy.ts:40-74 | the subdomain route never answers with the bad-path 400 |
| Sql.Keys | src/database/Schema.ts:11 | the keys of an object, in property order |
| Sql.Values | src/database/Schema.ts:15 | the values of an object, in property order |
| Sql.Without | src/database/Database.ts:63 | deleting `id` keeps exactly the other properties |
| Sql.WithoutKeepsOrder | src/database/Database.ts:63 | deleting a property keeps the others in their order: it distributes over joining two runs of properties |
| Sql.BuildSelect | src/database/Schema.ts:8-19 | the parameters are the filter's values in key order, or none; the clause opens with ` WHERE ` iff a filter object is given, and with a filter it opens with ` WHERE ` followed by `k = ?` for each key in key order, joined by ` AND ` |
| Sql.SelectBindings | src/database/Schema.ts:9-15 | placeholder i of a filtered select takes parameter i, the value of key i: split at its placeholders the clause reads ` WHERE <key 0> = `, ` AND <key 1> = `, … in key order, then the ORDER BY and LIMIT text, so each value sits next to its own column |
| Sql.SelectClauses | src/database/Schema.ts:9-18 | the clause is WHERE, ORDER BY, LIMIT in that order: a select is its filter-only clause followed by its options-only clause, which is its order-only clause followed by its limit-only clause; an order alone is ` ORDER BY <column> <direction>`, a truthy limit alone ` LIMIT <n>`, nothing at all the empty clause |
| Sql.WherePlaceholders | src/database/Schema.ts:9-14 | the WHERE clause holds one placeholder per filter key |
| Sql.SelectPlaceholdersMatch | src/database/Schema.ts:8-19 | the clause holds exactly one placeholder per parameter |
| Sql.EmptyFilterDangles | src/database/Schema.ts:9-14 | an empty filter object yields a bare ` WHERE ` with no condition and no parameter |
| Sql.ZeroLimitOmitted | src/database/Schema.ts:17 | a zero limit gives the same clause as no limit |
| Sql.SelectFrom | src/database/Schema.ts:205-208 | a wrapper's query is `SELECT * FROM <its table>` followed by the built clause, with the built parameters |
| Sql.TableNamesDistinct | src/database/Schema.ts:103-338 | distinct tables have distinct names, so no wrapper addresses another's table |
| Sql.Insert | src/database/Database.ts:62-71 | `id` is removed from the caller's object first; the statement is `INSERT INTO <table> (<keys joined by , >) VALUES (<one ? per key joined by , >)`; the parameters are the remaining values in key order |
| Sql.ColumnListRoundTrip | src/database/Database.ts:66 | a `, `-joined column list reads back as its columns, in order, when no name holds a comma |
| Sql.InsertColumns | src/database/Database.ts:64-69 | the column list of an insert reads back as the object's keys in order, the VALUES list has one placeholder per parameter, and there are as many columns as parameters: column i takes parameter i |
| Sql.InsertPlaceholdersMatch | src/database/Database.ts:64-69 | an insert holds exactly one placeholder per parameter |
| Sql.Update | src/database/Database.ts:78-94 | `id` is removed from the caller's object first; the statement is `UPDATE <table> SET ` with `k = ?` per key in key order joined by `, `, then ` WHERE id = ?`, then ` AND <key> = ?` only with a guard; the parameters are the remaining values, then the id, then the guard's value or null |
| Sql.UpdateBindings | src/database/Database.ts:84-93 | placeholder i of an update takes parameter i: split at its placeholders the statement reads `UPDATE <table> SET <column 0> = `, `, <column 1> = `, … in key order, then ` WHERE id = ` for the id, then ` AND <key> = ` only with a guard |
| Sql.UpdatePlaceholders | src/database/Database.ts:84-93 | an update holds one placeholder per column, one for the id, and one more only with a guard, so without a guard there is one parameter more than placeholders |
| Sql.UpdateRow | src/database/Schema.ts:294-303 | the update wrapper's statement is the update of its table, starting `UPDATE <its table> SET `, with the same assignments and conditions; it passes the id as the next-to-last parameter and never carries an `id` column |
| Sql.InsertRow | src/database/Schema.ts:332-334 | the insert wrapper's statement is the insert into its table, starting `INSERT INTO <its table> `, with the column list and one placeholder per column; it never carries an `id` column |
| Challenge.RandomHex | src/challenge.ts:17 | the nonce has the requested length and consists of lower-case hex digits |
| Challenge.CreateChallenge | src/challenge.ts:15-20 | a new challenge has difficulty 3 and a 64-digit hex nonce, and is stored unsolved under its id; an id already taken fails |
| Challenge.CheckChallenge | src/challenge.ts:22-37 | a missing row fails; a row with a truthy solution is rejected with no change; otherwise the solution is accepted and stored iff the digest starts with `difficulty` zeros; a rejection changes nothing |
| Challenge.AcceptedOnce | src/challenge.ts:24-32 | after a non-empty solution is accepted, every later check of the challenge is rejected and changes nothing |
| Challenge.FreshIsOpen | src/challenge.ts:15-31 | a freshly created challenge is accepted exactly when the digest meets difficulty 3 |
| Challenge.EmptySolutionReplays | src/challenge.ts:24-32 | an accepted empty solution is stored as a falsy value, so the same check is accepted again |
| Challenge.EmptySolutionReplaysExample | src/challenge.ts:24-32 | a concrete challenge on which the empty solution is accepted twice |
| Challenge.CheckChallengeOnce | src/challenge.ts:22-37 | the check with any stored solution, even the empty one, closing the challenge |
| Challenge.CheckChallengeOnceIsOneShot | src/challenge.ts:24-32 | with the corrected check every solution is accepted at most once |
| Challenge.ChecksAgree | src/challenge.ts:24 | the written and corrected checks agree unless the stored solution is the empty one |
| Readiness.CheckReadiness | src/readiness.ts:5-14 | ready iff both calls succeed, health is `ok` and 1 <= depth < 31; health is asked first; topology is asked iff health answered |
| Readiness.DepthWindow | src/readiness.ts:9 | with both calls answering, ready iff status `ok` and depth in 1..30 |
| Server.Cors | src/server.ts:29-42 | the middleware adds the three CORS headers before any route runs and keeps the other headers; OPTIONS is answered 200; every other method passes on. A relayed node answer carrying headers of the same names replaces them (src/proxy.ts:212) |
| Server.SubdomainOffset | src/server.ts:44-45 | the offset is the number of dot-separated labels of the hostname |
| Server.HostnameLabels | src/server.ts:44 | the counted labels are the dot-free parts of the hostname, and joined with dots they give the hostname back |
| Server.Authorize | src/server.ts:47-60 | without a secret everything passes; an exact header match passes; otherwise soft mode passes any method except lower-case `post`, and the rest get 403 |
| Server.SoftAuthAdmitsEverything | src/server.ts:51-55 | in soft mode every upper-case method passes, authenticated or not |
| Server.SoftAuthAdmitsPostExample | src/server.ts:51-55 | an unauthenticated POST passes in soft mode |
| Server.AuthorizeIntended | src/server.ts:47-60 | the guard with soft mode passing everything but POST |
| Server.IntendedRejectsOnlyPost | src/server.ts:51-58 | the written and corrected guards differ exactly on unauthenticated soft-mode POSTs |
| Server.ModerationGuard | src/server.ts:97-109 | passes iff a secret is configured and the header equals it; otherwise 401 |
| Server.ModerationClosedWithoutSecret | src/server.ts:98-101 | without a secret every moderation request gets 401 |
| Server.ModerationMode | src/server.ts:118-130 | both the allow and the deny route store mode `allow` |
| Server.ModerationInsert | src/server.ts:121-128 | a moderation route sends `INSERT INTO rules (hash, mode) VALUES (?, ?)` with the hash and the route's mode as the parameters, so the hash lands in `hash` and the mode in `mode` |
| Server.ModerationModeIntended | src/server.ts:118-130 | each route stores a mode that reads back as its own rule |
| Server.DenyRouteAllows | src/server.ts:125-130 | a hash denied through the deny route is let through by the access gate |
| Server.DenyRouteDeniesIntended | src/server.ts:125-130 | with the intended mode, a denied hash passes only by a matching agent or the baseline |
| Server.ReadinessStatus | src/server.ts:73-81 | 200 iff the node is ready, 503 otherwise |
| Server.ProxyOptions | src/server.ts:137-142 | the proxy gets the node URL, the hostname, the manager and pin removal that defaults to on, but no instance name |
| Server.WiredWithDefaults | src/server.ts:137-142 | the wired proxy always starts from the default settings |
| Server.PinHeaderStrippedByDefault | src/server.ts:139 | with no pin variable set, the wired proxy strips the pin header |

## Left out

- HTTP, database and node I/O: axios, express, mysql2 and bee-js calls are oracles. Timeouts, redirect limits, abort-on-disconnect, body parsing and HTTP framing are not modelled.
- Route matching of express (`/bzz/*` and the other endpoint lists) is assumed. A request reaching `HandleGet`/`HandlePost` already matched.
- `Objects.toQueryString`: the query is carried as an opaque string. The node base URL is not carried in `Upstream`: a request is its path relative to that URL, and the probe of src/proxy.ts:109 is the same request with `.html` appended to the path. How `Strings.joinUrl` normalises a trailing slash of the path before `.html` is appended is not modelled.
- Stamp.MaxHeadroom: states maximality only; which candidate `Arrays.maxBy` picks on a tie is not modelled.
- `Strings.searchSubstring` and `Strings.searchHex` are oracles on the path. `Identifier` states only the choice between their results.
- Proxy.Before: `Strings.before` is assumed to return the empty string when the needle does not occur; the library is not part of this model. Were it to return the whole host instead, a GET to a host outside the configured hostname would be taken as a subdomain. Proxy.JoinUrl is a slash-trimming segment join, standing in for `Strings.joinUrl`.
- Byte-level UTF-8 decoding of body prefixes: bodies are strings, and a prefix is the first 50 or 100 characters.
- Proxy.IsHtml: lower-casing is ASCII only.
- Proxy.AgentMatch: the case-insensitive user-agent comparison behind Proxy.Decide lower-cases ASCII letters only.
- Config.GetStampConfig: `Types.asNumber` is an oracle text-to-number coercion; NaN handling of `Number()` in Config.GetServerConfig is the same oracle's `None`.
- The `System.forever` loop and its two-minute period: a single `manageStamps` iteration is modelled. Gauges and counters of stamp.ts and the metrics endpoint are observability only.
- keccak-256, hex decoding and `new Reference(...)` parsing are oracles.
- Challenge.CheckChallenge: each check is modelled as one atomic step. Overlapping checks of the same challenge (src/challenge.ts:23-32, no atomic guard on the update) can each accept, so Challenge.AcceptedOnce holds only for checks that run one after another.
- Challenge.CreateChallenge: the database's choice of id is an input, and a duplicate id is the only insert failure modelled. Database write failures of `checkChallenge` and of the moderation routes are not modelled.
- Sql.BuildSelect: a limit is an integer; a non-integer JavaScript number and its text rendering are not modelled.
- Sql.SelectBindings, Sql.UpdateBindings, Sql.InsertColumns: the statements are read back only when the table and column names hold no `?` (and, for the insert's column list, no comma) and there is at least one column; an object with no properties leaves `() VALUES ()` or `SET  WHERE` in the text, which the builders produce as written but the read-back does not cover.
- The moderation approval and report routes, the rule deletion route and the moderation listing (src/server.ts:83-95, 111-116, 132-135): plain inserts, deletes and reads with no decision in them.
- The homepage fallback handler, src/setup.ts, src/migration.ts, src/logger.ts, src/not-found.ts (an opaque constant page), src/index.ts and the connection pool and row shaping in src/database/Database.ts are not part of this model.

## Findings

| source | as written | input that shows it | evidently intended | confidence | as-written member | corrected member |
|---|---|---|---|---|---|---|
| src/server.ts:125-130 | the deny route inserts a rule with mode `allow` | POST /moderation/deny with a hash whose content the defaults deny | store mode `deny` | high, not executed | Server.DenyRouteAllows | Server.DenyRouteDeniesIntended |
| src/server.ts:51-55 | soft mode compares the method with lower-case `post`, which the framework never delivers | an unauthenticated `POST` with soft auth on | compare with `POST`, so soft mode admits reads only | high, not executed | Server.SoftAuthAdmitsPostExample | Server.IntendedRejectsOnlyPost |
| src/challenge.ts:24 | a stored solution is tested for truthiness, so an accepted empty solution leaves the challenge open | a challenge whose digest of the nonce alone starts with three zeros, solved twice with `""` | any stored solution closes the challenge | low, not executed | Challenge.EmptySolutionReplaysExample | Challenge.CheckChallengeOnceIsOneShot |
| src/bzz-link.ts:8-10 | the rewrite lookup is cached under the constant key `rewrites` | label `a` with a rewrite, then label `b` within a minute | one cache entry per label | high, not executed | BzzLink.ForeignTargetServed | BzzLink.KeyedLabelsIndependent |

=== FILE: bzz_link.dfy ===
/**
 * Subdomain resolution (src/bzz-link.ts): a subdomain label becomes the path
 * segment proxied under `bzz/`. A stored rewrite wins, then a label that
 * parses as a content reference, then the label read as an ENS name.
 *
 * The rewrite lookup goes through the time-to-live cache under the single key
 * `rewrites`, which does not depend on the label: within a minute every label
 * sees the row looked up for the first one.
 */
module BzzLink {
  import opened Wrappers
  import TtlCache

  const CacheKey := "rewrites"
  const CacheTtlMs: nat := 60000

  /** A row of the `rewrites` table. */
  datatype Rewrite = Rewrite(subdomain: string, target: string)

  /**
   * The collaborators: `lookup` is `getOnlyRewritesRowOrNull({ subdomain })`
   * (it fails on a database error or when several rows match), and
   * `parseReference` is `new Reference(label).toHex()`, `None` when it throws.
   */
  datatype Resolver = Resolver(lookup: string -> Result<Option<Rewrite>>, parseReference: string -> Option<string>)

  datatype Resolution = Resolution(target: Result<string>, cache: TtlCache.Cache<Option<Rewrite>>)

  /** `subdomainToBzz` at clock `now`. */
  function SubdomainToBzz(subdomain: string, cache: TtlCache.Cache<Option<Rewrite>>, now: int, resolver: Resolver): (r: Resolution)
    ensures r.cache == TtlCache.Get(cache, CacheKey, now, CacheTtlMs, resolver.lookup(subdomain)).cache
    ensures r.target.Failure? <==> TtlCache.Get(cache, CacheKey, now, CacheTtlMs, resolver.lookup(subdomain)).value.Failure?
  {
    var hit := TtlCache.Get(cache, CacheKey, now, CacheTtlMs, resolver.lookup(subdomain));
    if hit.value.Failure? then Resolution(Failure(hit.value.error), hit.cache)
    else if hit.value.value.Some? then Resolution(Success(hit.value.value.value.target), hit.cache)
    else match resolver.parseReference(subdomain)
      case Some(hex) => Resolution(Success(hex), hit.cache)
      case None => Resolution(Success(subdomain + ".eth"), hit.cache)
  }

  /** The rewrite row the cache yields for this call, if the lookup succeeded. */
  function RowSeen(subdomain: string, cache: TtlCache.Cache<Option<Rewrite>>, now: int, resolver: Resolver): Result<Option<Rewrite>> {
    TtlCache.Get(cache, CacheKey, now, CacheTtlMs, resolver.lookup(subdomain)).value
  }

  /**
   * Precedence: the rewrite target when a row is seen; otherwise the reference
   * hex when the label parses; otherwise `label.eth`. A failed parse never
   * surfaces as an error; only the row lookup can fail the resolution.
   */
  lemma Precedence(subdomain: string, cache: TtlCache.Cache<Option<Rewrite>>, now: int, resolver: Resolver)
    ensures var seen, r := RowSeen(subdomain, cache, now, resolver), SubdomainToBzz(subdomain, cache, now, resolver);
      && (seen.Success? && seen.value.Some? ==> r.target == Success(seen.value.value.target))
      && (seen == Success(None) && resolver.parseReference(subdomain).Some? ==>
            r.target == Success(resolver.parseReference(subdomain).value))
      && (seen == Success(None) && resolver.parseReference(subdomain).None? ==> r.target == Success(subdomain + ".eth"))
      && (r.target.Failure? <==> seen.Failure?)
  {
  }

  /**
   * The shared cache key: once a label has been resolved by a fresh lookup, a
   * different label resolved within the minute sees the first label's row —
   * including the absence of one — and its own row is never looked up.
   */
  lemma SharedCacheKey(first: string, second: string, cache: TtlCache.Cache<Option<Rewrite>>, t0: int, t1: int, resolver: Resolver)
    requires !TtlCache.Live(cache, CacheKey, t0) && resolver.lookup(first).Success?
    requires t0 <= t1 < t0 + CacheTtlMs
    ensures var c1 := SubdomainToBzz(first, cache, t0, resolver).cache;
      RowSeen(second, c1, t1, resolver) == resolver.lookup(first)
      && !TtlCache.Get(c1, CacheKey, t1, CacheTtlMs, resolver.lookup(second)).produced
  {
    TtlCache.ReuseWithinTtl(cache, CacheKey, t0, t1, CacheTtlMs, resolver.lookup(first), resolver.lookup(second));
  }

  /**
   * A consequence of the shared key: any label, whatever its own rewrite,
   * resolves to another label's target when that label was resolved just before.
   */
  lemma ForeignTargetServed(first: string, second: string, cache: TtlCache.Cache<Option<Rewrite>>, t0: int, t1: int,
                            resolver: Resolver, row: Rewrite)
    requires !TtlCache.Live(cache, CacheKey, t0) && resolver.lookup(first) == Success(Some(row))
    requires t0 <= t1 < t0 + CacheTtlMs
    ensures SubdomainToBzz(second, SubdomainToBzz(first, cache, t0, resolver).cache, t1, resolver).target == Success(row.target)
  {
    SharedCacheKey(first, second, cache, t0, t1, resolver);
  }

  /** The cache key as evidently intended: one entry per label. */
  function KeyFor(subdomain: string): string {
    CacheKey + ":" + subdomain
  }

  /** Distinct labels get distinct keys. */
  lemma KeyForInjective(a: string, b: string)
    ensures KeyFor(a) == KeyFor(b) ==> a == b
  {
    var n := |CacheKey + ":"|;
    assert KeyFor(a)[n..] == a && KeyFor(b)[n..] == b;
  }

  /** `subdomainToBzz` with the rewrite lookup cached under the label's own key. */
  function SubdomainToBzzKeyed(subdomain: string, cache: TtlCache.Cache<Option<Rewrite>>, now: int, resolver: Resolver): (r: Resolution)
    ensures var hit := TtlCache.Get(cache, KeyFor(subdomain), now, CacheTtlMs, resolver.lookup(subdomain));
      && r.cache == hit.cache
      && (r.target.Failure? <==> hit.value.Failure?)
      && (hit.value.Success? && hit.value.value.Some? ==> r.target == Success(hit.value.value.value.target))
      && (hit.value == Success(None) ==>
            r.target == Success(if resolver.parseReference(subdomain).Some? then resolver.parseReference(subdomain).value
                                else subdomain + ".eth"))
  {
    var hit := TtlCache.Get(cache, KeyFor(subdomain), now, CacheTtlMs, resolver.lookup(subdomain));
    if hit.value.Failure? then Resolution(Failure(hit.value.error), hit.cache)
    else if hit.value.value.Some? then Resolution(Success(hit.value.value.value.target), hit.cache)
    else match resolver.parseReference(subdomain)
      case Some(hex) => Resolution(Success(hex), hit.cache)
      case None => Resolution(Success(subdomain + ".eth"), hit.cache)
  }

  /**
   * The keyed resolution keeps the source's precedence: when the label's own
   * entry is live exactly when the shared one is, and then holds the same row,
   * both resolutions give the same target.
   */
  lemma KeyedAgreesWithShared(subdomain: string, shared: TtlCache.Cache<Option<Rewrite>>, keyed: TtlCache.Cache<Option<Rewrite>>,
                              now: int, resolver: Resolver)
    requires TtlCache.Live(shared, CacheKey, now) <==> TtlCache.Live(keyed, KeyFor(subdomain), now)
    requires TtlCache.Live(shared, CacheKey, now) ==> keyed[KeyFor(subdomain)].value == shared[CacheKey].value
    ensures SubdomainToBzzKeyed(subdomain, keyed, now, resolver).target == SubdomainToBzz(subdomain, shared, now, resolver).target
  {
  }

  /**
   * With per-label keys, resolving one label never changes how another label
   * resolves afterwards: the second label sees exactly what it would have seen
   * had the first never been resolved.
   */
  lemma KeyedLabelsIndependent(first: string, second: string, cache: TtlCache.Cache<Option<Rewrite>>, t0: int, t1: int,
                               resolver: Resolver)
    requires first != second
    ensures var c1 := SubdomainToBzzKeyed(first, cache, t0, resolver).cache;
      SubdomainToBzzKeyed(second, c1, t1, resolver).target == SubdomainToBzzKeyed(second, cache, t1, resolver).target
  {
    var c1 := SubdomainToBzzKeyed(first, cache, t0, resolver).cache;
    KeyForInjective(first, second);
    assert TtlCache.Live(c1, KeyFor(second), t1) == TtlCache.Live(cache, KeyFor(second), t1);
  }

  /** With per-label keys, a label whose lookup is fresh resolves to its own rewrite. */
  lemma KeyedOwnTarget(subdomain: string, cache: TtlCache.Cache<Option<Rewrite>>, now: int, resolver: Resolver, row: Rewrite)
    requires !TtlCache.Live(cache, KeyFor(subdomain), now) && resolver.lookup(subdomain) == Success(Some(row))
    ensures SubdomainToBzzKeyed(subdomain, cache, now, resolver).target == Success(row.target)
  {
  }
}

=== FILE: challenge.dfy ===
/**
 * The proof-of-work challenge (src/challenge.ts). A challenge row holds a
 * difficulty, a random nonce and, once solved, the solution. The store is a
 * map from row id to row; keccak-256 over the concatenated bytes is an
 * uninterpreted digest that answers the hex of the hash, or fails when either
 * input is not valid hex.
 */
module Challenge {
  import opened Wrappers
  import Text

  const Difficulty: nat := 3
  const NonceLength: nat := 64

  datatype Row = Row(id: int, difficulty: nat, nonce: string, solution: Option<string>)

  type Store = map<int, Row>

  /** What `createChallenge` returns to the client. */
  datatype Issued = Issued(id: int, difficulty: nat, nonce: string)

  /** `hex(keccak256(hexToBytes(nonce) ‖ hexToBytes(solution)))` */
  type Digest = (string, string) -> Result<string>

  predicate HexDigit(c: char) {
    '0' <= c <= '9' || 'a' <= c <= 'f'
  }

  /** `Strings.randomHex(n)`, from the `n` random draws `random(0)`, …, `random(n - 1)`. */
  function RandomHex(n: nat, random: nat -> nat): (r: string)
    ensures |r| == n && forall i :: 0 <= i < n ==> HexDigit(r[i])
  {
    seq(n, i requires 0 <= i < n => "0123456789abcdef"[random(i) % 16])
  }

  /** A stored solution counts as present when it is truthy, i.e. set and non-empty. */
  predicate Solved(row: Row) {
    row.solution.Some? && row.solution.value != ""
  }

  /** The acceptance test: the digest starts with `difficulty` zero digits. */
  predicate Meets(digest: string, difficulty: nat) {
    Text.StartsWith(digest, Text.Repeat('0', difficulty))
  }

  /**
   * `createChallenge`: difficulty 3 and a fresh 64-digit nonce, stored under the
   * id the database assigns; inserting under an id already taken fails.
   */
  function CreateChallenge(store: Store, id: int, random: nat -> nat): (r: Result<(Issued, Store)>)
    ensures r.Success? <==> id !in store
    ensures r.Success? ==> r.value.0.id == id && r.value.0.difficulty == Difficulty
    ensures r.Success? ==> |r.value.0.nonce| == NonceLength && forall i :: 0 <= i < NonceLength ==> HexDigit(r.value.0.nonce[i])
    ensures r.Success? ==> r.value.1 == store[id := Row(id, Difficulty, r.value.0.nonce, None)]
  {
    if id in store then Failure("duplicate id")
    else
      var nonce := RandomHex(NonceLength, random);
      Success((Issued(id, Difficulty, nonce), store[id := Row(id, Difficulty, nonce, None)]))
  }

  /**
   * `checkChallenge`: a missing row fails; a solved row rejects without hashing;
   * otherwise the solution is accepted and stored exactly when the digest meets
   * the row's difficulty.
   */
  function CheckChallenge(store: Store, id: int, solution: string, digest: Digest): (r: Result<(bool, Store)>)
    ensures r.Failure? <==> id !in store || (!Solved(store[id]) && digest(store[id].nonce, solution).Failure?)
    ensures r.Success? ==>
      (r.value.0 <==> !Solved(store[id]) && Meets(digest(store[id].nonce, solution).value, store[id].difficulty))
    ensures r.Success? && r.value.0 ==> r.value.1 == store[id := store[id].(solution := Some(solution))]
    ensures r.Success? && !r.value.0 ==> r.value.1 == store
  {
    if id !in store then Failure("no such challenge")
    else
      var row := store[id];
      if Solved(row) then Success((false, store))
      else
        var hex :- digest(row.nonce, solution);
        if Meets(hex, row.difficulty) then Success((true, store[id := row.(solution := Some(solution))]))
        else Success((false, store))
  }

  /**
   * One-shot: once a non-empty solution has been accepted, every later check of
   * that challenge is rejected, whatever is submitted, and changes nothing.
   */
  lemma AcceptedOnce(store: Store, id: int, solution: string, digest: Digest, later: string, laterDigest: Digest)
    requires solution != ""
    requires CheckChallenge(store, id, solution, digest).Success? && CheckChallenge(store, id, solution, digest).value.0
    ensures var after := CheckChallenge(store, id, solution, digest).value.1;
      CheckChallenge(after, id, later, laterDigest) == Success((false, after))
  {
  }

  /** A fresh challenge is unsolved, so its first acceptance depends on the digest alone. */
  lemma FreshIsOpen(store: Store, id: int, random: nat -> nat, solution: string, digest: Digest)
    requires id !in store
    ensures var issued := CreateChallenge(store, id, random).value;
      var r := CheckChallenge(issued.1, id, solution, digest);
      digest(issued.0.nonce, solution).Success? ==>
        (r.Success? && (r.value.0 <==> Meets(digest(issued.0.nonce, solution).value, Difficulty)))
  {
  }

  /**
   * The empty solution is stored as a falsy value: when it meets the difficulty
   * it is accepted again on every later check, so the challenge is never used up.
   */
  lemma EmptySolutionReplays(store: Store, id: int, digest: Digest)
    requires id in store && !Solved(store[id])
    requires digest(store[id].nonce, "").Success? && Meets(digest(store[id].nonce, "").value, store[id].difficulty)
    ensures var first := CheckChallenge(store, id, "", digest);
      first.Success? && first.value.0
      && CheckChallenge(first.value.1, id, "", digest) == Success((true, first.value.1))
  {
    var first := CheckChallenge(store, id, "", digest);
    var after := first.value.1;
    assert after[id] == store[id].(solution := Some(""));
    assert after[id := after[id].(solution := Some(""))] == after;
  }

  /** A concrete row on which the empty solution is accepted twice. */
  lemma EmptySolutionReplaysExample()
    ensures var store := map[1 := Row(1, 3, "00", None)];
      var digest: Digest := (n, s) => Success("000abc");
      var first := CheckChallenge(store, 1, "", digest);
      first.Success? && first.value.0 && CheckChallenge(first.value.1, 1, "", digest).value.0
  {
    var store := map[1 := Row(1, 3, "00", None)];
    var digest: Digest := (n, s) => Success("000abc");
    assert Meets("000abc", 3) by { assert Text.Repeat('0', 3) == "000"; }
    EmptySolutionReplays(store, 1, digest);
  }

  /** The check as evidently intended: any stored solution, even the empty one, closes the challenge. */
  function CheckChallengeOnce(store: Store, id: int, solution: string, digest: Digest): (r: Result<(bool, Store)>)
    ensures r.Failure? <==> id !in store || (store[id].solution.None? && digest(store[id].nonce, solution).Failure?)
    ensures r.Success? ==>
      (r.value.0 <==> store[id].solution.None? && Meets(digest(store[id].nonce, solution).value, store[id].difficulty))
    ensures r.Success? && r.value.0 ==> r.value.1 == store[id := store[id].(solution := Some(solution))]
    ensures r.Success? && !r.value.0 ==> r.value.1 == store
  {
    if id !in store then Failure("no such challenge")
    else
      var row := store[id];
      if row.solution.Some? then Success((false, store))
      else
        var hex :- digest(row.nonce, solution);
        if Meets(hex, row.difficulty) then Success((true, store[id := row.(solution := Some(solution))]))
        else Success((false, store))
  }

  /** With the corrected check every solution, the empty one included, is accepted at most once. */
  lemma CheckChallengeOnceIsOneShot(store: Store, id: int, solution: string, digest: Digest, later: string, laterDigest: Digest)
    requires CheckChallengeOnce(store, id, solution, digest).Success? && CheckChallengeOnce(store, id, solution, digest).value.0
    ensures var after := CheckChallengeOnce(store, id, solution, digest).value.1;
      CheckChallengeOnce(after, id, later, laterDigest) == Success((false, after))
  {
  }

  /** The two checks agree on every challenge that does not store the empty solution. */
  lemma ChecksAgree(store: Store, id: int, solution: string, digest: Digest)
    requires id in store ==> store[id].solution != Some("")
    ensures CheckChallenge(store, id, solution, digest) == CheckChallengeOnce(store, id, solution, digest)
  {
  }
}

=== FILE: config.dfy ===
/**
 * Derivation of the gateway's configuration records from environment
 * variables (src/config.ts). The environment is a map from variable name to
 * value; JavaScript numbers are `real`s, and the number coercions the source
 * delegates to a helper library are the oracle `toNumber`, `None` meaning the
 * text is not a number (the coercion throws, or `Number()` yields NaN).
 */
module Config {
  import opened Wrappers

  type Env = map<string, string>

  /** Text-to-number coercion supplied from outside; `None` when the text is not a number. */
  type NumberParser = string -> Option<real>

  const DefaultBeeApiUrl := "http://localhost:1633"
  const DefaultHostname := "localhost"
  const DefaultPort: real := 3000.0
  const DefaultLogLevel := "info"
  const SupportedLevels: seq<string> := ["critical", "error", "warn", "info", "verbose", "debug"]
  const ErrorNoStamp := "No postage stamp"
  /** `Duration.fromHours(1).toSeconds()` */
  const DefaultThresholdSeconds: real := 3600.0
  const DefaultThresholdUsage: real := 0.85
  /** The error raised when a numeric variable does not hold a number. */
  const ErrorNotANumber := "not a number"

  datatype AppConfig = AppConfig(
    beeApiUrl: string,
    hostname: string,
    authorization: Option<string>,
    instanceName: Option<string>,
    moderationSecret: Option<string>,
    removePinHeader: Option<bool>,
    homepage: Option<string>)

  /** `port` is `None` when `Number(...)` yields NaN. */
  datatype ServerConfig = ServerConfig(hostname: string, port: Option<real>)

  datatype StampConfig = StampConfig(
    hardcodedStamp: string,
    postageDepth: Option<real>,
    postageAmount: Option<real>,
    postageThresholdUsage: real,
    postageThresholdSeconds: real,
    postageKeepAlive: bool)

  function Var(env: Env, name: string): Option<string> {
    if name in env then Some(env[name]) else None
  }

  /** JavaScript truthiness of an optional string: present and not empty. */
  predicate Truthy(v: Option<string>) {
    v.Some? && v.value != ""
  }

  /** JavaScript truthiness of an optional number: present and not zero. */
  predicate NumTruthy(v: Option<real>) {
    v.Some? && v.value != 0.0
  }

  /** `v || d` on an optional string. */
  function Or(v: Option<string>, d: string): string {
    if Truthy(v) then v.value else d
  }

  /** The module-level `logLevel`: the variable when it names a supported level, else `info`. */
  function LogLevel(env: Env): (r: string)
    ensures r in SupportedLevels
    ensures r == Or(Var(env, "LOG_LEVEL"), "") <==> "LOG_LEVEL" in env && env["LOG_LEVEL"] in SupportedLevels
    ensures r != DefaultLogLevel ==> Var(env, "LOG_LEVEL") == Some(r)
  {
    var v := Var(env, "LOG_LEVEL");
    if Truthy(v) && v.value in SupportedLevels then v.value else DefaultLogLevel
  }

  /** `getAppConfig` */
  function GetAppConfig(env: Env): (r: AppConfig)
    ensures Truthy(Var(env, "HOSTNAME")) ==> r.hostname == env["HOSTNAME"]
    ensures !Truthy(Var(env, "HOSTNAME")) ==> r.hostname == DefaultHostname
    ensures Truthy(Var(env, "BEE_API_URL")) ==> r.beeApiUrl == env["BEE_API_URL"]
    ensures !Truthy(Var(env, "BEE_API_URL")) ==> r.beeApiUrl == DefaultBeeApiUrl
    ensures r.hostname != "" && r.beeApiUrl != ""
    ensures r.removePinHeader == Some(false) <==> Truthy(Var(env, "REMOVE_PIN_HEADER")) && env["REMOVE_PIN_HEADER"] != "true"
    ensures r.removePinHeader.Some?
    ensures r.authorization == Var(env, "AUTH_SECRET")
    ensures r.moderationSecret == Var(env, "MODERATION_SECRET")
    ensures r.instanceName == Var(env, "INSTANCE_NAME")
    ensures r.homepage == Var(env, "HOMEPAGE")
  {
    var pin := Var(env, "REMOVE_PIN_HEADER");
    AppConfig(
      Or(Var(env, "BEE_API_URL"), DefaultBeeApiUrl),
      Or(Var(env, "HOSTNAME"), DefaultHostname),
      Var(env, "AUTH_SECRET"),
      Var(env, "INSTANCE_NAME"),
      Var(env, "MODERATION_SECRET"),
      Some(if Truthy(pin) then pin.value == "true" else true),
      Var(env, "HOMEPAGE"))
  }

  /** `getServerConfig` */
  function GetServerConfig(env: Env, toNumber: NumberParser): (r: ServerConfig)
    ensures !Truthy(Var(env, "PORT")) ==> r.port == Some(DefaultPort)
    ensures Truthy(Var(env, "PORT")) ==> r.port == toNumber(env["PORT"])
    ensures r.hostname == GetAppConfig(env).hostname
  {
    var port := Var(env, "PORT");
    ServerConfig(Or(Var(env, "HOSTNAME"), DefaultHostname),
                 if Truthy(port) then toNumber(port.value) else Some(DefaultPort))
  }

  /** `Types.asOptional(Types.asNumber, v)`: absent stays absent, present must be a number. */
  function OptionalNumber(v: Option<string>, toNumber: NumberParser): Result<Option<real>> {
    match v
    case None => Success(None)
    case Some(s) =>
      match toNumber(s)
      case Some(x) => Success(Some(x))
      case None => Failure(ErrorNotANumber)
  }

  /** `Types.asNullable(Types.asNumber, v) || d`: absent, or a number equal to zero, gives `d`. */
  function NumberOr(v: Option<string>, d: real, toNumber: NumberParser): Result<real> {
    var n :- OptionalNumber(v, toNumber);
    Success(if NumTruthy(n) then n.value else d)
  }

  /** The number a variable holds: `None` when it is absent or does not parse. */
  function Parsed(env: Env, name: string, toNumber: NumberParser): Option<real> {
    if name in env then toNumber(env[name]) else None
  }

  /** `getStampConfig`; fails when a numeric variable does not hold a number. */
  function GetStampConfig(env: Env, toNumber: NumberParser): (r: Result<StampConfig>)
    ensures r.Success? ==> r.value.hardcodedStamp == Or(Var(env, "POSTAGE_STAMP"), "")
    ensures r.Success? ==> (r.value.postageKeepAlive <==> Var(env, "POSTAGE_KEEP_ALIVE") == Some("true"))
    ensures r.Success? ==> r.value.postageThresholdSeconds != 0.0 && r.value.postageThresholdUsage != 0.0
    ensures r.Success? && "POSTAGE_AMOUNT" !in env ==> r.value.postageAmount == None
    ensures r.Success? && "POSTAGE_DEPTH" !in env ==> r.value.postageDepth == None
    ensures r.Success? && "POSTAGE_AMOUNT" in env ==> r.value.postageAmount == toNumber(env["POSTAGE_AMOUNT"])
    ensures r.Success? && "POSTAGE_DEPTH" in env ==> r.value.postageDepth == toNumber(env["POSTAGE_DEPTH"])
    ensures r.Success? && !NumTruthy(Parsed(env, "POSTAGE_THRESHOLD_SECONDS", toNumber))
      ==> r.value.postageThresholdSeconds == DefaultThresholdSeconds
    ensures r.Success? && NumTruthy(Parsed(env, "POSTAGE_THRESHOLD_SECONDS", toNumber))
      ==> r.value.postageThresholdSeconds == Parsed(env, "POSTAGE_THRESHOLD_SECONDS", toNumber).value
    ensures r.Success? && !NumTruthy(Parsed(env, "POSTAGE_THRESHOLD_USAGE", toNumber))
      ==> r.value.postageThresholdUsage == DefaultThresholdUsage
    ensures r.Success? && NumTruthy(Parsed(env, "POSTAGE_THRESHOLD_USAGE", toNumber))
      ==> r.value.postageThresholdUsage == Parsed(env, "POSTAGE_THRESHOLD_USAGE", toNumber).value
    ensures r.Failure? <==> exists name :: name in NumericStampVariables && name in env && toNumber(env[name]).None?
  {
    var amount :- OptionalNumber(Var(env, "POSTAGE_AMOUNT"), toNumber);
    var depth :- OptionalNumber(Var(env, "POSTAGE_DEPTH"), toNumber);
    var seconds :- NumberOr(Var(env, "POSTAGE_THRESHOLD_SECONDS"), DefaultThresholdSeconds, toNumber);
    var usage :- NumberOr(Var(env, "POSTAGE_THRESHOLD_USAGE"), DefaultThresholdUsage, toNumber);
    var keep := Var(env, "POSTAGE_KEEP_ALIVE");
    Success(StampConfig(
      Or(Var(env, "POSTAGE_STAMP"), ""),
      depth,
      amount,
      usage,
      seconds,
      if Truthy(keep) then keep.value == "true" else false))
  }

  const NumericStampVariables: set<string> :=
    {"POSTAGE_AMOUNT", "POSTAGE_DEPTH", "POSTAGE_THRESHOLD_SECONDS", "POSTAGE_THRESHOLD_USAGE"}

  /** Every variable `getStampConfig` reads. */
  const StampVariables: set<string> := NumericStampVariables + {"POSTAGE_STAMP", "POSTAGE_KEEP_ALIVE"}

  /**
   * The stamp configuration depends on the six stamp variables alone: two
   * environments that agree on them give the same result, failure included.
   */
  lemma StampConfigReadsOwnVariables(e1: Env, e2: Env, toNumber: NumberParser)
    requires forall v :: v in StampVariables ==> Var(e1, v) == Var(e2, v)
    ensures GetStampConfig(e1, toNumber) == GetStampConfig(e2, toNumber)
  {
    assert Var(e1, "POSTAGE_AMOUNT") == Var(e2, "POSTAGE_AMOUNT");
    assert Var(e1, "POSTAGE_DEPTH") == Var(e2, "POSTAGE_DEPTH");
    assert Var(e1, "POSTAGE_THRESHOLD_SECONDS") == Var(e2, "POSTAGE_THRESHOLD_SECONDS");
    assert Var(e1, "POSTAGE_THRESHOLD_USAGE") == Var(e2, "POSTAGE_THRESHOLD_USAGE");
    assert Var(e1, "POSTAGE_STAMP") == Var(e2, "POSTAGE_STAMP");
    assert Var(e1, "POSTAGE_KEEP_ALIVE") == Var(e2, "POSTAGE_KEEP_ALIVE");
  }

  /** With nothing set, every record takes its documented defaults. */
  lemma EmptyEnvironmentDefaults(toNumber: NumberParser)
    ensures GetAppConfig(map[]) == AppConfig(DefaultBeeApiUrl, DefaultHostname, None, None, None, Some(true), None)
    ensures GetServerConfig(map[], toNumber) == ServerConfig(DefaultHostname, Some(DefaultPort))
    ensures GetStampConfig(map[], toNumber)
         == Success(StampConfig("", None, None, DefaultThresholdUsage, DefaultThresholdSeconds, false))
    ensures LogLevel(map[]) == DefaultLogLevel
  {
  }

  /**
   * A variable set to the empty string is read exactly as if it were absent,
   * for every variable that the configuration reads through `||` or truthiness.
   */
  lemma EmptyActsAsAbsent(env: Env, name: string, toNumber: NumberParser)
    requires name in {"HOSTNAME", "BEE_API_URL", "REMOVE_PIN_HEADER", "PORT", "POSTAGE_STAMP", "POSTAGE_KEEP_ALIVE", "LOG_LEVEL"}
    ensures GetAppConfig(env[name := ""]) == GetAppConfig(env - {name})
    ensures GetServerConfig(env[name := ""], toNumber) == GetServerConfig(env - {name}, toNumber)
    ensures GetStampConfig(env[name := ""], toNumber) == GetStampConfig(env - {name}, toNumber)
    ensures LogLevel(env[name := ""]) == LogLevel(env - {name})
  {
    EmptyAppConfig(env, name);
    EmptyServerConfig(env, name, toNumber);
    EmptyStampConfig(env, name, toNumber);
    SameReading(env, name, "LOG_LEVEL");
  }

  lemma EmptyAppConfig(env: Env, name: string)
    requires name in {"HOSTNAME", "BEE_API_URL", "REMOVE_PIN_HEADER", "PORT", "POSTAGE_STAMP", "POSTAGE_KEEP_ALIVE", "LOG_LEVEL"}
    ensures GetAppConfig(env[name := ""]) == GetAppConfig(env - {name})
  {
    SameReading(env, name, "HOSTNAME");
    SameReading(env, name, "BEE_API_URL");
    SameReading(env, name, "REMOVE_PIN_HEADER");
    SameReading(env, name, "AUTH_SECRET");
    SameReading(env, name, "INSTANCE_NAME");
    SameReading(env, name, "MODERATION_SECRET");
    SameReading(env, name, "HOMEPAGE");
  }

  lemma EmptyServerConfig(env: Env, name: string, toNumber: NumberParser)
    requires name in {"HOSTNAME", "BEE_API_URL", "REMOVE_PIN_HEADER", "PORT", "POSTAGE_STAMP", "POSTAGE_KEEP_ALIVE", "LOG_LEVEL"}
    ensures GetServerConfig(env[name := ""], toNumber) == GetServerConfig(env - {name}, toNumber)
  {
    EmptyAppConfig(env, name);
    SameReading(env, name, "PORT");
  }

  lemma EmptyStampConfig(env: Env, name: string, toNumber: NumberParser)
    requires name in {"HOSTNAME", "BEE_API_URL", "REMOVE_PIN_HEADER", "PORT", "POSTAGE_STAMP", "POSTAGE_KEEP_ALIVE", "LOG_LEVEL"}
    ensures GetStampConfig(env[name := ""], toNumber) == GetStampConfig(env - {name}, toNumber)
  {
    SameReading(env, name, "POSTAGE_STAMP");
    SameReading(env, name, "POSTAGE_KEEP_ALIVE");
    SameReading(env, name, "POSTAGE_AMOUNT");
    SameReading(env, name, "POSTAGE_DEPTH");
    SameReading(env, name, "POSTAGE_THRESHOLD_SECONDS");
    SameReading(env, name, "POSTAGE_THRESHOLD_USAGE");
  }

  /** Blanking `name` changes neither any other variable nor the truthiness reading of `name`. */
  lemma SameReading(env: Env, name: string, v: string)
    ensures v != name ==> Var(env[name := ""], v) == Var(env - {name}, v)
    ensures v == name ==> !Truthy(Var(env[name := ""], v)) && !Truthy(Var(env - {name}, v))
    ensures forall d :: Or(Var(env[name := ""], v), d) == Or(Var(env - {name}, v), d)
  {
  }

  /** A threshold variable holding zero falls back to the default, like an absent one. */
  lemma ZeroThresholdsUseDefaults(env: Env, toNumber: NumberParser)
    requires "POSTAGE_THRESHOLD_SECONDS" in env && toNumber(env["POSTAGE_THRESHOLD_SECONDS"]) == Some(0.0)
    requires "POSTAGE_THRESHOLD_USAGE" in env && toNumber(env["POSTAGE_THRESHOLD_USAGE"]) == Some(0.0)
    requires GetStampConfig(env, toNumber).Success?
    ensures GetStampConfig(env, toNumber).value.postageThresholdSeconds == DefaultThresholdSeconds
    ensures GetStampConfig(env, toNumber).value.postageThresholdUsage == DefaultThresholdUsage
  {
  }
}

=== FILE: proxy.dfy ===
/**
 * The proxy pipeline (src/proxy.ts): request pre-processing, fetch with the
 * `.html` fallback probe, the synthesized not-found page, HTML classification,
 * the access gate and the relay with stale framing headers removed.
 *
 * Every effect is an input: the storage node's answer to each upstream
 * request, the settings row, the allowed user agents, the moderation rule per
 * hash, and the two identifier scans the source delegates to a helper library.
 * Bodies are strings whose characters stand for bytes; lower-casing is ASCII.
 */
module Proxy {
  import opened Wrappers
  import Text
  import Config
  import TtlCache
  import Stamp
  import BzzLink

  const BadPath: string := "bzz/" + Text.Repeat('0', 64)
  const StampHeader := "swarm-postage-batch-id"
  const PinHeader := "swarm-pin"
  const NotFoundPhrase := "address not found or incorrect"
  const DoctypeMarker := "<!doctype html"
  const NotFoundWindow: nat := 100
  const SniffWindow: nat := 50
  const HtmlType := "text/html"
  const CacheTtlMs: nat := 60000
  const SettingsKey := "settings"
  const UserAgentsKey := "user-agents"
  const ForbiddenPath := "/forbidden"
  const ForbiddenWithHash := "/forbidden?hash="

  /** Upstream headers that are never relayed. */
  const StrippedHeaders: set<string> :=
    {"content-length", "content-encoding", "transfer-encoding", "connection", "etag", "last-modified", "cache-control"}

  datatype Verb = GET | POST

  /** Header names are lower-case, as Node delivers them. */
  type Headers = map<string, string>

  datatype Rule = Allow | Deny

  /** A row of the `settings` table. */
  datatype Settings = Settings(name: string, defaultWebsiteRule: Rule, defaultFileRule: Rule)

  /** Used when no instance name is configured or no row exists for it. */
  const DefaultSettings := Settings("default", Deny, Allow)

  /** A request to the storage node; `path` is relative to the node's base URL, `query` already encoded. */
  datatype Upstream = Upstream(verb: Verb, path: string, query: string, headers: Headers, body: string)

  datatype Response = Response(status: int, headers: Headers, body: string)

  datatype Options = Options(
    beeApiUrl: string,
    removePinHeader: bool,
    instanceName: Option<string>,
    stampManager: Stamp.Manager,
    hostname: Option<string>)

  /**
   * The collaborators. `fetch` is the node's answer (or a transport error);
   * `settingsRow`, `userAgents` and `rule` are the database reads;
   * `searchCid` and `searchHex` are `Strings.searchSubstring` for a token
   * starting with `bah` longer than 48 characters and `Strings.searchHex` for
   * 64 hex digits.
   */
  datatype Backend = Backend(
    fetch: Upstream -> Result<Response>,
    settingsRow: string -> Result<Option<Settings>>,
    userAgents: Result<seq<string>>,
    rule: string -> Result<Option<Rule>>,
    searchCid: string -> Option<string>,
    searchHex: string -> Option<string>)

  datatype Caches = Caches(settings: TtlCache.Cache<Settings>, userAgents: TtlCache.Cache<seq<string>>)

  datatype Reply =
    | Relay(status: int, headers: Headers, body: string)
    | NotFoundPage
    | Redirect(location: string)
    | BadPathError
    | ServerError

  /** The reply, the upstream requests sent, the hashes whose rule was read, and the caches after. */
  datatype Outcome = Outcome(reply: Reply, sent: seq<Upstream>, ruleLookups: seq<string>, caches: Caches)

  function Header(h: Headers, name: string): Option<string> {
    if name in h then Some(h[name]) else None
  }

  // ------------------------------------------------------------ pre-processing

  /**
   * Lines 89-96: drop the pin header when configured, and attach the current
   * stamp to a POST when the stamp manager is enabled; without a stamp the
   * getter throws and the request fails.
   */
  function PrepareHeaders(verb: Verb, headers: Headers, options: Options): (r: Result<Headers>)
    ensures verb == POST && options.stampManager.enabled ==>
      (r.Success? <==> options.stampManager.stamp.Some?)
    ensures !(verb == POST && options.stampManager.enabled) ==> r.Success? && StampHeader !in r.value - headers.Keys
    ensures r.Success? && verb == POST && options.stampManager.enabled ==>
      Header(r.value, StampHeader) == Some(options.stampManager.stamp.value.hex)
    ensures r.Success? && options.removePinHeader ==> PinHeader !in r.value
    ensures r.Success? && !options.removePinHeader ==> Header(r.value, PinHeader) == Header(headers, PinHeader)
    ensures r.Success? ==> forall k :: k != PinHeader && k != StampHeader ==> Header(r.value, k) == Header(headers, k)
  {
    var kept := if options.removePinHeader then headers - {PinHeader} else headers;
    if verb == POST && options.stampManager.enabled then
      match Stamp.GetPostageStamp(options.stampManager)
      case Success(hex) => Success(kept[StampHeader := hex])
      case Failure(e) => Failure(e)
    else Success(kept)
  }

  // ------------------------------------------------------------------ fetching

  /** One axios call: a status of 500 or more is rejected like a transport error. */
  function Call(backend: Backend, up: Upstream): (r: Result<Response>)
    ensures r.Success? ==> r.value.status < 500 && backend.fetch(up) == r
    ensures backend.fetch(up).Success? && backend.fetch(up).value.status < 500 ==> r == backend.fetch(up)
  {
    match backend.fetch(up)
    case Success(resp) => if resp.status < 500 then Success(resp) else Failure("status " + Text.IntToString(resp.status))
    case Failure(e) => Failure(e)
  }

  /** The primary status that triggers the `.html` probe: 404 or a redirect. */
  predicate ProbeWorthy(status: int) {
    status == 404 || 300 <= status < 400
  }

  /** The probe: the same request against `path.html`. */
  function Probe(up: Upstream): Upstream {
    up.(path := up.path + ".html")
  }

  datatype Fetched = Fetched(response: Result<Response>, sent: seq<Upstream>)

  /**
   * Lines 97-124. The probe is sent only after a primary 404 or 3xx; it
   * replaces the primary answer only with a 2xx; a rejected probe fails the
   * whole fetch.
   */
  function Fetch(backend: Backend, up: Upstream): (f: Fetched)
    ensures 1 <= |f.sent| <= 2 && f.sent[0] == up
    ensures |f.sent| == 2 <==> Call(backend, up).Success? && ProbeWorthy(Call(backend, up).value.status)
    ensures |f.sent| == 2 ==> f.sent[1] == Probe(up)
    ensures f.response.Success? <==> Call(backend, up).Success? && (|f.sent| == 2 ==> Call(backend, Probe(up)).Success?)
    ensures f.response.Success? && |f.sent| == 2 && 200 <= Call(backend, Probe(up)).value.status < 300
      ==> f.response.value == Call(backend, Probe(up)).value
    ensures f.response.Success? && (|f.sent| == 1 || !(200 <= Call(backend, Probe(up)).value.status < 300))
      ==> f.response.value == Call(backend, up).value
  {
    match Call(backend, up)
    case Failure(e) => Fetched(Failure(e), [up])
    case Success(primary) =>
      if ProbeWorthy(primary.status) then
        match Call(backend, Probe(up))
        case Failure(e) => Fetched(Failure(e), [up, Probe(up)])
        case Success(probe) => Fetched(Success(if 200 <= probe.status < 300 then probe else primary), [up, Probe(up)])
      else Fetched(Success(primary), [up])
  }

  // ------------------------------------------------------------ classification

  /** Lines 126-135: the node's own "not found" answer, recognised in the first 100 bytes. */
  predicate IsNodeNotFound(resp: Response) {
    resp.status == 404 && Text.Contains(Text.Take(resp.body, NotFoundWindow), NotFoundPhrase)
  }

  /** The three tests of lines 139-149, each on its own. */
  predicate DeclaredHtml(resp: Response) {
    Header(resp.headers, "content-type") == Some(HtmlType)
  }

  predicate HtmlDisposition(resp: Response) {
    Text.Contains(Text.Lower(Header(resp.headers, "content-disposition").GetOr("")), ".htm")
  }

  predicate SniffedHtml(resp: Response) {
    Text.Contains(Text.Lower(Text.Take(resp.body, SniffWindow)), DoctypeMarker)
  }

  /** Lines 137-149, as the source chains them: each test runs only when the previous ones failed. */
  function IsHtml(resp: Response): (html: bool)
    ensures html <==> DeclaredHtml(resp) || HtmlDisposition(resp) || SniffedHtml(resp)
  {
    if Header(resp.headers, "content-type") == Some(HtmlType) then true
    else if Text.Contains(Text.Lower(Header(resp.headers, "content-disposition").GetOr("")), ".htm") then true
    else Text.Contains(Text.Lower(Text.Take(resp.body, SniffWindow)), DoctypeMarker)
  }

  /** Lines 151-153: an HTML answer is relabelled `text/html`; nothing else changes. */
  function Classify(resp: Response): (r: Response)
    ensures r.status == resp.status && r.body == resp.body
    ensures IsHtml(resp) ==> Header(r.headers, "content-type") == Some(HtmlType)
    ensures forall k :: k != "content-type" ==> Header(r.headers, k) == Header(resp.headers, k)
    ensures !IsHtml(resp) ==> r == resp
  {
    if IsHtml(resp) then resp.(headers := resp.headers["content-type" := HtmlType]) else resp
  }

  // --------------------------------------------------------------- access gate

  /** Lines 155-161: settings row of the instance, or the defaults; a database error propagates. */
  function SettingsSource(options: Options, backend: Backend): (r: Result<Settings>)
    ensures !Config.Truthy(options.instanceName) ==> r == Success(DefaultSettings)
    ensures Config.Truthy(options.instanceName) && backend.settingsRow(options.instanceName.value) == Success(None)
      ==> r == Success(DefaultSettings)
    ensures Config.Truthy(options.instanceName) && backend.settingsRow(options.instanceName.value).Success?
      && backend.settingsRow(options.instanceName.value).value.Some?
      ==> r == Success(backend.settingsRow(options.instanceName.value).value.value)
    ensures r.Failure? <==> Config.Truthy(options.instanceName) && backend.settingsRow(options.instanceName.value).Failure?
  {
    if !Config.Truthy(options.instanceName) then Success(DefaultSettings)
    else match backend.settingsRow(options.instanceName.value)
      case Success(row) => Success(row.GetOr(DefaultSettings))
      case Failure(e) => Failure(e)
  }

  /** Lines 165-173: the allowed user agents; a database error yields none. */
  function AgentsSource(backend: Backend): seq<string> {
    match backend.userAgents
    case Success(agents) => agents
    case Failure(_) => []
  }

  /** Line 163: what the settings allow before any override. */
  predicate Baseline(settings: Settings, isHtml: bool) {
    if isHtml then settings.defaultWebsiteRule == Allow else settings.defaultFileRule == Allow
  }

  /** Line 175: some allowed agent occurs, case-insensitively, in the request's user agent. */
  predicate AgentMatch(agents: seq<string>, headers: Headers) {
    "user-agent" in headers
    && exists i :: 0 <= i < |agents| && Text.Contains(Text.Lower(headers["user-agent"]), Text.Lower(agents[i]))
  }

  /** Lines 182-184: the long `bah…` token when found, else the 64-digit hex token. */
  function Identifier(backend: Backend, path: string): (id: Option<string>)
    ensures Config.Truthy(backend.searchCid(path)) ==> id == backend.searchCid(path)
    ensures !Config.Truthy(backend.searchCid(path)) ==> id == backend.searchHex(path)
  {
    var cid := backend.searchCid(path);
    if Config.Truthy(cid) then cid else backend.searchHex(path)
  }

  /** A moderation rule explicitly allows `hash`. */
  predicate RuleAllows(backend: Backend, hash: Option<string>) {
    Config.Truthy(hash) && backend.rule(hash.value) == Success(Some(Allow))
  }

  /** The verdict, the identifier extracted (if any) and the hashes whose rule was read. */
  datatype Decision = Decision(allowed: bool, hash: Option<string>, lookups: seq<string>)

  /**
   * Lines 163-193. A matching user agent allows outright; the rule store is read
   * only when no agent matches and the baseline denies, and only for a
   * non-empty identifier; a failed read leaves the denial in place.
   */
  function Decide(isHtml: bool, settings: Settings, agents: seq<string>, headers: Headers, path: string, backend: Backend): (d: Decision)
    ensures d.allowed <==>
      AgentMatch(agents, headers) || Baseline(settings, isHtml) || RuleAllows(backend, Identifier(backend, path))
    ensures d.lookups != [] <==>
      !AgentMatch(agents, headers) && !Baseline(settings, isHtml) && Config.Truthy(Identifier(backend, path))
    ensures d.lookups != [] ==> d.lookups == [Identifier(backend, path).value]
    ensures !d.allowed ==> d.hash == Identifier(backend, path)
  {
    if AgentMatch(agents, headers) then Decision(true, None, [])
    else if Baseline(settings, isHtml) then Decision(true, None, [])
    else
      var hash := Identifier(backend, path);
      if Config.Truthy(hash) then
        Decision(backend.rule(hash.value) == Success(Some(Allow)), hash, [hash.value])
      else Decision(false, hash, [])
  }

  /** Lines 195-201: where a denied request is sent. */
  function ForbiddenLocation(hash: Option<string>): (loc: string)
    ensures Text.StartsWith(loc, ForbiddenPath)
    ensures Config.Truthy(hash) <==> Text.StartsWith(loc, ForbiddenWithHash)
  {
    if Config.Truthy(hash) then ForbiddenWithHash + hash.value else ForbiddenPath
  }

  /** The hash a forbidden location carries. */
  function HashOfLocation(loc: string): Option<string> {
    if Text.StartsWith(loc, ForbiddenWithHash) then Some(loc[|ForbiddenWithHash|..]) else None
  }

  /** The forbidden page is told exactly the identifier that was looked up. */
  lemma ForbiddenLocationRoundTrip(hash: Option<string>)
    ensures Config.Truthy(hash) ==> HashOfLocation(ForbiddenLocation(hash)) == hash
    ensures !Config.Truthy(hash) ==> ForbiddenLocation(hash) == ForbiddenPath && HashOfLocation(ForbiddenPath) == None
  {
    if Config.Truthy(hash) {
      var loc := ForbiddenLocation(hash);
      assert loc[|ForbiddenWithHash|..] == hash.value;
    }
  }

  /** Lines 204-210. */
  function Sanitize(h: Headers): (r: Headers)
    ensures forall k :: k in r <==> k in h && k !in StrippedHeaders
    ensures forall k :: k in r ==> r[k] == h[k]
  {
    h - StrippedHeaders
  }

  // ------------------------------------------------------------------ pipeline

  /** `fetchAndRespond` at clock `now`. */
  function FetchAndRespond(verb: Verb, path: string, query: string, headers: Headers, body: string,
                           options: Options, backend: Backend, caches: Caches, now: int): (o: Outcome)
    ensures |o.sent| <= 2
    ensures o.reply.Relay? ==> forall k :: k in StrippedHeaders ==> k !in o.reply.headers
    ensures o.reply.Redirect? ==> Text.StartsWith(o.reply.location, ForbiddenPath)
    ensures !o.reply.Redirect? ==> |o.ruleLookups| == 0 || o.reply.Relay?
    ensures o.reply.NotFoundPage? ==> o.ruleLookups == [] && o.caches == caches
    ensures options.removePinHeader ==> forall u :: u in o.sent ==> PinHeader !in u.headers
    ensures verb == POST && options.stampManager.enabled ==>
      forall u :: u in o.sent ==>
        options.stampManager.stamp.Some? && Header(u.headers, StampHeader) == Some(options.stampManager.stamp.value.hex)
    ensures verb == POST && options.stampManager.enabled && options.stampManager.stamp.None? ==>
      o == Outcome(ServerError, [], [], caches)
    ensures forall u :: u in o.sent ==> u.verb == verb && u.query == query && u.body == body
    ensures var h := PrepareHeaders(verb, headers, options);
      h.Success? ==>
        var f := Fetch(backend, Upstream(verb, path, query, h.value, body));
        (f.response.Success? && !IsNodeNotFound(f.response.value)
         ==> o == Gate(f.response.value, path, h.value, options, backend, caches, now, f.sent))
  {
    match PrepareHeaders(verb, headers, options)
    case Failure(_) => Outcome(ServerError, [], [], caches)
    case Success(h) =>
      var f := Fetch(backend, Upstream(verb, path, query, h, body));
      if f.response.Failure? then Outcome(ServerError, f.sent, [], caches)
      else
        var resp := f.response.value;
        if IsNodeNotFound(resp) then Outcome(NotFoundPage, f.sent, [], caches)
        else
          Gate(resp, path, h, options, backend, caches, now, f.sent)
  }

  /** Lines 137-212 once a response that is not the node's not-found answer is in hand. */
  function Gate(resp: Response, path: string, h: Headers, options: Options, backend: Backend,
                caches: Caches, now: int, sent: seq<Upstream>): (o: Outcome)
    ensures o.sent == sent
    ensures o.reply.Relay? || o.reply.Redirect? || o.reply == ServerError
    ensures o.reply.Relay? ==> o.reply == Relay(resp.status, Sanitize(Classify(resp).headers), resp.body)
    ensures o.reply.Redirect? ==> Text.StartsWith(o.reply.location, ForbiddenPath)
    ensures o.reply == ServerError ==> o.ruleLookups == []
    ensures o.reply == ServerError
        <==> TtlCache.Get(caches.settings, SettingsKey, now, CacheTtlMs, SettingsSource(options, backend)).value.Failure?
  {
    var html := IsHtml(resp);
    var shown := Classify(resp);
    var s := TtlCache.Get(caches.settings, SettingsKey, now, CacheTtlMs, SettingsSource(options, backend));
    if s.value.Failure? then Outcome(ServerError, sent, [], caches.(settings := s.cache))
    else
      var a := TtlCache.Get(caches.userAgents, UserAgentsKey, now, CacheTtlMs, Success(AgentsSource(backend)));
      var after := Caches(s.cache, a.cache);
      var d := Decide(html, s.value.value, a.value.value, h, path, backend);
      if !d.allowed then Outcome(Redirect(ForbiddenLocation(d.hash)), sent, d.lookups, after)
      else Outcome(Relay(shown.status, Sanitize(shown.headers), shown.body), sent, d.lookups, after)
  }

  /**
   * The access verdict of the pipeline, stated against the values the caches
   * yield: a response is relayed exactly when the reference rule admits it,
   * and otherwise the client is redirected to the forbidden page carrying the
   * identifier.
   */
  lemma GateFollowsRule(resp: Response, path: string, h: Headers, options: Options, backend: Backend,
                        caches: Caches, now: int, sent: seq<Upstream>, settings: Settings, agents: seq<string>)
    requires TtlCache.Get(caches.settings, SettingsKey, now, CacheTtlMs, SettingsSource(options, backend)).value == Success(settings)
    requires TtlCache.Get(caches.userAgents, UserAgentsKey, now, CacheTtlMs, Success(AgentsSource(backend))).value == Success(agents)
    ensures var o := Gate(resp, path, h, options, backend, caches, now, sent);
      && (o.reply.Relay? <==>
            AgentMatch(agents, h) || Baseline(settings, IsHtml(resp)) || RuleAllows(backend, Identifier(backend, path)))
      && (!o.reply.Relay? ==> o.reply == Redirect(ForbiddenLocation(Identifier(backend, path))))
      && (o.ruleLookups != [] <==> !AgentMatch(agents, h) && !Baseline(settings, IsHtml(resp)) && Config.Truthy(Identifier(backend, path)))
  {
  }

  /**
   * Without an instance name the baseline is the default settings: HTML is
   * denied and other files allowed, unless an agent or a rule overrides.
   */
  lemma DefaultsWithoutInstance(resp: Response, path: string, h: Headers, options: Options, backend: Backend,
                                caches: Caches, now: int, sent: seq<Upstream>)
    requires !Config.Truthy(options.instanceName)
    requires !TtlCache.Live(caches.settings, SettingsKey, now)
    ensures var o := Gate(resp, path, h, options, backend, caches, now, sent);
      && (!IsHtml(resp) ==> o.reply.Relay?)
      && (IsHtml(resp) && o.reply.Relay? ==> AgentMatch(AgentsFor(caches, now, backend), h) || RuleAllows(backend, Identifier(backend, path)))
  {
  }

  /**
   * With an instance name whose settings row is stored, and no live settings
   * entry, that row is the baseline the gate applies, and it is cached for the
   * next minute.
   */
  lemma StoredSettingsGovern(resp: Response, path: string, h: Headers, options: Options, backend: Backend,
                             caches: Caches, now: int, sent: seq<Upstream>, row: Settings)
    requires Config.Truthy(options.instanceName) && backend.settingsRow(options.instanceName.value) == Success(Some(row))
    requires !TtlCache.Live(caches.settings, SettingsKey, now)
    ensures var o := Gate(resp, path, h, options, backend, caches, now, sent);
      && (o.reply.Relay? <==>
            AgentMatch(AgentsFor(caches, now, backend), h) || Baseline(row, IsHtml(resp)) || RuleAllows(backend, Identifier(backend, path)))
      && SettingsKey in o.caches.settings && o.caches.settings[SettingsKey] == TtlCache.Entry(row, now + CacheTtlMs)
  {
    GateFollowsRule(resp, path, h, options, backend, caches, now, sent, row, AgentsFor(caches, now, backend));
  }

  /**
   * A database error while reading the instance's settings row, with no live
   * settings entry, answers 500: no rule is read and no cache changes.
   */
  lemma SettingsErrorIs500(resp: Response, path: string, h: Headers, options: Options, backend: Backend,
                           caches: Caches, now: int, sent: seq<Upstream>)
    requires Config.Truthy(options.instanceName) && backend.settingsRow(options.instanceName.value).Failure?
    requires !TtlCache.Live(caches.settings, SettingsKey, now)
    ensures Gate(resp, path, h, options, backend, caches, now, sent) == Outcome(ServerError, sent, [], caches)
  {
  }

  /** The agent list the gate uses at `now`: the cached one while live, else a fresh read. */
  function AgentsFor(caches: Caches, now: int, backend: Backend): seq<string> {
    TtlCache.Get(caches.userAgents, UserAgentsKey, now, CacheTtlMs, Success(AgentsSource(backend))).value.value
  }

  /**
   * The fallback as the client sees it: after a primary 404 or 3xx whose
   * `.html` probe answers 2xx, the client receives the probe's status and body.
   */
  lemma FallbackServed(verb: Verb, path: string, query: string, headers: Headers, body: string,
                       options: Options, backend: Backend, caches: Caches, now: int)
    requires PrepareHeaders(verb, headers, options).Success?
    requires var up := Upstream(verb, path, query, PrepareHeaders(verb, headers, options).value, body);
      Call(backend, up).Success? && ProbeWorthy(Call(backend, up).value.status)
      && Call(backend, Probe(up)).Success? && 200 <= Call(backend, Probe(up)).value.status < 300
    ensures var up := Upstream(verb, path, query, PrepareHeaders(verb, headers, options).value, body);
      var o := FetchAndRespond(verb, path, query, headers, body, options, backend, caches, now);
      && o.sent == [up, Probe(up)]
      && o == Gate(Call(backend, Probe(up)).value, path, up.headers, options, backend, caches, now, [up, Probe(up)])
      && (o.reply.Relay? ==> o.reply.status == Call(backend, Probe(up)).value.status
                             && o.reply.body == Call(backend, Probe(up)).value.body)
  {
  }

  /**
   * The node's not-found answer becomes the static page: no gate runs, no rule
   * is read, no cache is touched, whatever the settings and agents are.
   */
  lemma NotFoundShortCircuit(verb: Verb, path: string, query: string, headers: Headers, body: string,
                             options: Options, backend: Backend, caches: Caches, now: int)
    requires PrepareHeaders(verb, headers, options).Success?
    requires var f := Fetch(backend, Upstream(verb, path, query, PrepareHeaders(verb, headers, options).value, body));
      f.response.Success? && IsNodeNotFound(f.response.value)
    ensures FetchAndRespond(verb, path, query, headers, body, options, backend, caches, now).reply == NotFoundPage
    ensures FetchAndRespond(verb, path, query, headers, body, options, backend, caches, now).caches == caches
  {
  }

  // -------------------------------------------------------------------- routes

  /** Lines 66-74: a GET through the proxy endpoints; the all-zero reference is refused up front. */
  function HandleGet(path: string, query: string, headers: Headers, body: string,
                     options: Options, backend: Backend, caches: Caches, now: int): (o: Outcome)
    ensures Text.Contains(path, BadPath) ==> o == Outcome(BadPathError, [], [], caches)
    ensures !Text.Contains(path, BadPath) ==> o == FetchAndRespond(GET, path, query, headers, body, options, backend, caches, now)
  {
    if Text.Contains(path, BadPath) then Outcome(BadPathError, [], [], caches)
    else FetchAndRespond(GET, path, query, headers, body, options, backend, caches, now)
  }

  /** Lines 75-77: a POST through the proxy endpoints. */
  function HandlePost(path: string, query: string, headers: Headers, body: string,
                      options: Options, backend: Backend, caches: Caches, now: int): (o: Outcome)
    ensures options.stampManager.enabled && options.stampManager.stamp.None? ==> o.reply == ServerError && o.sent == []
    ensures options.stampManager.enabled && options.stampManager.stamp.Some? ==>
      forall u :: u in o.sent ==> Header(u.headers, StampHeader) == Some(options.stampManager.stamp.value.hex)
  {
    FetchAndRespond(POST, path, query, headers, body, options, backend, caches, now)
  }

  /** Index of the first occurrence of `sub` in `s` at or after `i`. */
  function IndexFrom(s: string, sub: string, i: nat): (r: Option<nat>)
    ensures r.Some? ==> i <= r.value && Text.OccursAt(s, sub, r.value)
    ensures r.Some? ==> forall j :: i <= j < r.value ==> !Text.OccursAt(s, sub, j)
    ensures r.None? ==> forall j :: i <= j ==> !Text.OccursAt(s, sub, j)
    decreases |s| - i
  {
    if i + |sub| > |s| then None
    else if Text.OccursAt(s, sub, i) then Some(i)
    else IndexFrom(s, sub, i + 1)
  }

  /**
   * `Strings.before(s, sub)`: the text before the first occurrence of `sub`;
   * the model reads a host that does not contain the configured hostname as
   * having no subdomain.
   */
  function Before(s: string, sub: string): (r: string)
    ensures Text.Contains(s, sub) ==> r + sub <= s && forall j :: 0 <= j < |r| ==> !Text.OccursAt(s, sub, j)
    ensures !Text.Contains(s, sub) ==> r == ""
  {
    match IndexFrom(s, sub, 0)
    case Some(i) => s[..i]
    case None => ""
  }

  /** `s` with leading and trailing slashes removed. */
  function TrimSlashes(s: string): (r: string)
    ensures |r| > 0 ==> r[0] != '/' && r[|r| - 1] != '/'
    decreases |s|
  {
    if |s| > 0 && s[0] == '/' then TrimSlashes(s[1..])
    else if |s| > 0 && s[|s| - 1] == '/' then TrimSlashes(s[..|s| - 1])
    else s
  }

  predicate AllSlashes(s: string) {
    forall k :: 0 <= k < |s| ==> s[k] == '/'
  }

  /**
   * Trimming keeps one run of the segment, with nothing but slashes before and
   * after it; with the run's own ends free of slashes, the run is unique.
   */
  lemma TrimSlashesKeepsMiddle(s: string)
    ensures exists i, j :: (0 <= i <= j <= |s| && TrimSlashes(s) == s[i..j]
                            && AllSlashes(s[..i]) && AllSlashes(s[j..]))
  {
    var i, j := TrimmedRun(s);
  }

  /** Where the run `TrimSlashes` keeps starts and ends. */
  lemma {:induction false} TrimmedRun(s: string) returns (i: nat, j: nat)
    ensures i <= j <= |s| && TrimSlashes(s) == s[i..j] && AllSlashes(s[..i]) && AllSlashes(s[j..])
    decreases |s|
  {
    if |s| > 0 && s[0] == '/' {
      var t := s[1..];
      var i0, j0 := TrimmedRun(t);
      i, j := i0 + 1, j0 + 1;
      assert t[i0..j0] == s[i..j];
      assert s[j..] == t[j0..];
      SlashThenSlashes(s, i, t[..i0]);
    } else if |s| > 0 && s[|s| - 1] == '/' {
      var p := s[..|s| - 1];
      i, j := TrimmedRun(p);
      assert p[i..j] == s[i..j];
      assert s[..i] == p[..i];
      SlashesThenSlash(s, j, p[j..]);
    } else {
      i, j := 0, |s|;
      assert TrimSlashes(s) == s[0..|s|];
    }
  }

  lemma SlashThenSlashes(s: string, n: nat, rest: string)
    requires 0 < n <= |s| && s[0] == '/' && s[1..n] == rest && AllSlashes(rest)
    ensures AllSlashes(s[..n])
  {
    forall k | 0 < k < n ensures s[k] == '/' {
      assert s[k] == rest[k - 1];
    }
  }

  lemma SlashesThenSlash(s: string, n: nat, rest: string)
    requires n < |s| && s[|s| - 1] == '/' && s[n..|s| - 1] == rest && AllSlashes(rest)
    ensures AllSlashes(s[n..])
  {
    forall k | n <= k < |s| - 1 ensures s[k] == '/' {
      assert s[k] == rest[k - n];
    }
  }

  /** `Strings.joinUrl`: segments without their outer slashes, empty ones dropped, joined by `/`. */
  function JoinUrl(segments: seq<string>): string {
    Text.Join(NonEmpty(segments), "/")
  }

  function NonEmpty(segments: seq<string>): seq<string> {
    if |segments| == 0 then []
    else
      var t := TrimSlashes(segments[0]);
      (if t == "" then [] else [t]) + NonEmpty(segments[1..])
  }

  /** A segment without outer slashes is kept as it is. */
  predicate Bare(segment: string) {
    segment != "" && segment[0] != '/' && segment[|segment| - 1] != '/'
  }

  /**
   * The proxied path of a subdomain request: a resolved target without outer
   * slashes and a request path `/rest` give `bzz/<target>/<rest>`.
   */
  lemma ProxiedPath(target: string, rest: string)
    requires Bare(target) && Bare(rest)
    ensures JoinUrl(["bzz", target, "/" + rest]) == "bzz/" + target + "/" + rest
  {
    assert TrimSlashes("bzz") == "bzz";
    assert TrimSlashes(target) == target;
    assert ("/" + rest)[1..] == rest;
    assert TrimSlashes("/" + rest) == rest;
    var segments := ["bzz", target, "/" + rest];
    assert segments[1..] == [target, "/" + rest];
    assert segments[1..][1..] == ["/" + rest];
    assert NonEmpty(["/" + rest]) == [rest] + NonEmpty([]);
    assert NonEmpty(segments) == ["bzz", target, rest];
    assert ["bzz", target, rest][1..] == [target, rest];
    assert Text.Join([target, rest], "/") == target + "/" + rest;
  }

  datatype Routed = Next | Handled(outcome: Outcome, rewrites: TtlCache.Cache<Option<BzzLink.Rewrite>>)

  /** The part of a request host in front of the configured hostname (line 41). */
  function Subdomain(configured: Option<string>, requestHost: string): Option<string> {
    if Config.Truthy(configured) && requestHost != "" then Some(Before(requestHost, configured.value)) else None
  }

  /**
   * Lines 40-65: a GET to `<host>.<hostname>` is resolved and proxied as
   * `bzz/<target>/<path>`; any other request passes to the next handler. A
   * resolution failure answers 500 without contacting the node.
   */
  function HandleSubdomain(verb: string, requestHost: string, path: string, query: string, headers: Headers, body: string,
                           options: Options, backend: Backend, caches: Caches,
                           rewrites: TtlCache.Cache<Option<BzzLink.Rewrite>>, resolver: BzzLink.Resolver, now: int): (r: Routed)
    ensures r.Handled? <==> verb == "GET" && Config.Truthy(options.hostname) && Config.Truthy(Subdomain(options.hostname, requestHost))
    ensures r.Handled? ==>
      (var host := Subdomain(options.hostname, requestHost).value;
       var resolved := BzzLink.SubdomainToBzz(host[..|host| - 1], rewrites, now, resolver);
       && r.rewrites == resolved.cache
       && (resolved.target.Failure? ==> r.outcome == Outcome(ServerError, [], [], caches))
       && (resolved.target.Success? ==>
             r.outcome == FetchAndRespond(GET, JoinUrl(["bzz", resolved.target.value, path]), query, headers, body,
                                          options, backend, caches, now)))
  {
    var sub := Subdomain(options.hostname, requestHost);
    if !Config.Truthy(options.hostname) || !Config.Truthy(sub) || verb != "GET" then Next
    else
      var host := sub.value[..|sub.value| - 1];
      var resolved := BzzLink.SubdomainToBzz(host, rewrites, now, resolver);
      match resolved.target
      case Failure(_) => Handled(Outcome(ServerError, [], [], caches), resolved.cache)
      case Success(target) =>
        Handled(FetchAndRespond(GET, JoinUrl(["bzz", target, path]), query, headers, body, options, backend, caches, now),
                resolved.cache)
  }

  /**
   * The subdomain route does not apply the bad-path check of the GET endpoints:
   * the all-zero reference reached through a subdomain is proxied like any other.
   */
  lemma SubdomainSkipsBadPathCheck(requestHost: string, path: string, query: string, headers: Headers, body: string,
                                   options: Options, backend: Backend, caches: Caches,
                                   rewrites: TtlCache.Cache<Option<BzzLink.Rewrite>>, resolver: BzzLink.Resolver, now: int)
    requires Config.Truthy(options.hostname) && Config.Truthy(Subdomain(options.hostname, requestHost))
    ensures var r := HandleSubdomain("GET", requestHost, path, query, headers, body, options, backend, caches, rewrites, resolver, now);
      r.Handled? && r.outcome.reply != BadPathError
  {
  }
}

=== FILE: readiness.dfy ===
/**
 * The readiness verdict (src/readiness.ts): the node's health is read first,
 * then its topology; the gateway is ready when the node reports `ok` and a
 * Kademlia depth in [1, 31). Either call may fail; a failure means not ready.
 */
module Readiness {
  import opened Wrappers

  const MinDepth := 1
  const MaxDepth := 31

  datatype Health = Health(status: string)

  datatype Topology = Topology(depth: int)

  /** The node's answers to the two calls; the request timeout is not modelled. */
  datatype Node = Node(health: Result<Health>, topology: Result<Topology>)

  datatype Call = HealthCall | TopologyCall

  /** The verdict and the calls made, in order. */
  datatype Verdict = Verdict(ready: bool, calls: seq<Call>)

  /** The readiness condition on the two answers. */
  predicate Healthy(health: Health, topology: Topology) {
    health.status == "ok" && MinDepth <= topology.depth < MaxDepth
  }

  /** `checkReadiness` */
  function CheckReadiness(node: Node): (v: Verdict)
    ensures v.ready <==> node.health.Success? && node.topology.Success? && Healthy(node.health.value, node.topology.value)
    ensures |v.calls| >= 1 && v.calls[0] == HealthCall
    ensures TopologyCall in v.calls <==> node.health.Success?
    ensures v.calls == [HealthCall] || v.calls == [HealthCall, TopologyCall]
  {
    match node.health
    case Failure(_) => Verdict(false, [HealthCall])
    case Success(health) =>
      match node.topology
      case Failure(_) => Verdict(false, [HealthCall, TopologyCall])
      case Success(topology) => Verdict(health.status == "ok" && topology.depth >= 1 && topology.depth < 31, [HealthCall, TopologyCall])
  }

  /** A healthy node outside the depth window is not ready: depth 0 or depth of 31 or more. */
  lemma DepthWindow(status: string, depth: int)
    ensures CheckReadiness(Node(Success(Health(status)), Success(Topology(depth)))).ready
        <==> status == "ok" && 0 < depth <= 30
  {
  }
}

=== FILE: server.dfy ===
/**
 * The middleware decisions of the HTTP server (src/server.ts): CORS and the
 * preflight answer, the subdomain offset, the shared-secret authorization with
 * its soft mode, the moderation guard, the rule the moderation endpoints
 * store, the readiness route and the options the proxy is wired with.
 *
 * Request methods are the upper-case names the HTTP framework delivers.
 */
module Server {
  import opened Wrappers
  import Text
  import Config
  import Stamp
  import Proxy
  import Readiness
  import Sql

  const AllowOrigin := "*"
  const AllowMethods := "GET, POST, OPTIONS"
  const AllowHeaders := "Content-Type, Authorization, swarm-postage-batch-id, swarm-deferred-upload"

  datatype Request = Request(verb: string, headers: Proxy.Headers)

  /** What a middleware does: answer with a status, or hand on to the next handler. */
  datatype Step = Answer(status: int) | Next

  /** The three CORS headers set on every response. */
  function CorsHeaders(): (h: Proxy.Headers)
    ensures h.Keys == {"access-control-allow-origin", "access-control-allow-methods", "access-control-allow-headers"}
  {
    map["access-control-allow-origin" := AllowOrigin,
        "access-control-allow-methods" := AllowMethods,
        "access-control-allow-headers" := AllowHeaders]
  }

  /** Lines 29-42: the CORS headers are added to whatever the response holds; a preflight ends here with 200. */
  function Cors(req: Request, response: Proxy.Headers): (r: (Step, Proxy.Headers))
    ensures r.0 == Answer(200) <==> req.verb == "OPTIONS"
    ensures r.0 == Next <==> req.verb != "OPTIONS"
    ensures forall k :: k in CorsHeaders() ==> k in r.1 && r.1[k] == CorsHeaders()[k]
    ensures forall k :: k in response && k !in CorsHeaders() ==> k in r.1 && r.1[k] == response[k]
    ensures r.1.Keys == response.Keys + CorsHeaders().Keys
  {
    var headers := response + CorsHeaders();
    if req.verb == "OPTIONS" then (Answer(200), headers) else (Next, headers)
  }

  /** Lines 44-45: the number of dot-separated labels of the configured hostname. */
  function SubdomainOffset(hostname: string): (n: nat)
    ensures n == Text.Count(hostname, '.') + 1
  {
    Text.SplitLength(hostname, '.');
    |Text.Split(hostname, '.')|
  }

  /**
   * The labels the offset counts are the hostname's dot-free parts, and
   * joining them with dots gives the hostname back.
   */
  lemma HostnameLabels(hostname: string)
    ensures var labels := Text.Split(hostname, '.');
      && |labels| == SubdomainOffset(hostname)
      && Text.Join(labels, ".") == hostname
      && forall i :: 0 <= i < |labels| ==> '.' !in labels[i]
  {
    Text.SplitJoin(hostname, '.');
    Text.SplitPartsFree(hostname, '.');
  }

  /** The authorization header as Node delivers it. */
  function Authorization(req: Request): Option<string> {
    Proxy.Header(req.headers, "authorization")
  }

  /**
   * Lines 47-60, as written: with a secret configured, an exact header match
   * passes; otherwise soft mode passes any method that is not the lower-case
   * word `post`; otherwise 403. Without a secret nothing is checked.
   */
  function Authorize(secret: Option<string>, softAuth: bool, req: Request): (s: Step)
    ensures !Config.Truthy(secret) ==> s == Next
    ensures Config.Truthy(secret) && Authorization(req) == secret ==> s == Next
    ensures s != Next ==> s == Answer(403)
    ensures Config.Truthy(secret) && Authorization(req) != secret ==> (s == Next <==> softAuth && req.verb != "post")
  {
    if !Config.Truthy(secret) then Next
    else if Authorization(req) == secret then Next
    else if req.verb != "post" && softAuth then Next
    else Answer(403)
  }

  /** Upper-case method names, as delivered by the framework. */
  predicate UpperCase(verb: string) {
    forall i :: 0 <= i < |verb| ==> !('a' <= verb[i] <= 'z')
  }

  /**
   * As written, soft mode admits every request: no delivered method equals the
   * lower-case word, so an unauthenticated POST passes.
   */
  lemma SoftAuthAdmitsEverything(secret: Option<string>, req: Request)
    requires UpperCase(req.verb)
    ensures Authorize(secret, true, req) == Next
  {
    assert |req.verb| > 0 ==> !('a' <= req.verb[0] <= 'z');
  }

  /** A concrete unauthenticated POST that soft mode lets through. */
  lemma SoftAuthAdmitsPostExample()
    ensures Authorize(Some("s3cret"), true, Request("POST", map[])) == Next
  {
  }

  /** The guard as evidently intended: soft mode passes reads only, an unauthenticated POST gets 403. */
  function AuthorizeIntended(secret: Option<string>, softAuth: bool, req: Request): (s: Step)
    ensures !Config.Truthy(secret) ==> s == Next
    ensures Config.Truthy(secret) && Authorization(req) == secret ==> s == Next
    ensures s != Next ==> s == Answer(403)
    ensures Config.Truthy(secret) && Authorization(req) != secret ==> (s == Next <==> softAuth && req.verb != "POST")
  {
    var unauthenticated := Config.Truthy(secret) && Authorization(req) != secret;
    if unauthenticated && (req.verb == "POST" || !softAuth) then Answer(403) else Next
  }

  /** The intended guard differs from the written one exactly on unauthenticated soft-mode POSTs. */
  lemma IntendedRejectsOnlyPost(secret: Option<string>, softAuth: bool, req: Request)
    requires UpperCase(req.verb)
    ensures AuthorizeIntended(secret, softAuth, req) != Authorize(secret, softAuth, req)
        <==> Config.Truthy(secret) && Authorization(req) != secret && softAuth && req.verb == "POST"
  {
    assert |req.verb| > 0 ==> !('a' <= req.verb[0] <= 'z');
  }

  /** Lines 97-109: moderation needs a configured secret and an exact header match; anything else is 401. */
  function ModerationGuard(secret: Option<string>, req: Request): (s: Step)
    ensures s == Next <==> Config.Truthy(secret) && Authorization(req) == secret
    ensures s != Next ==> s == Answer(401)
  {
    if !Config.Truthy(secret) then Answer(401)
    else if Authorization(req) != secret then Answer(401)
    else Next
  }

  /** Without a configured secret, no request reaches a moderation route. */
  lemma ModerationClosedWithoutSecret(secret: Option<string>, req: Request)
    requires !Config.Truthy(secret)
    ensures ModerationGuard(secret, req) == Answer(401)
  {
  }

  datatype ModerationRoute = AllowRoute | DenyRoute

  /** Lines 118-130, as written: both routes store mode `allow`. */
  function ModerationMode(route: ModerationRoute): (mode: string)
    ensures mode == "allow"
  {
    match route
    case AllowRoute => "allow"
    case DenyRoute => "allow"
  }

  /** The `rules` insert a moderation route sends for `hash`. */
  function ModerationInsert(route: ModerationRoute, hash: string): (r: Sql.Written)
    ensures r.query.text == "INSERT INTO rules (hash, mode) VALUES (?, ?)"
    ensures r.query.params == [Sql.Str(hash), Sql.Str(ModerationMode(route))]
  {
    RulesInsertText(hash, ModerationMode(route));
    Sql.InsertRow(Sql.Rules, [("hash", Sql.Str(hash)), ("mode", Sql.Str(ModerationMode(route)))])
  }

  /** A `rules` row of a hash and a mode is inserted into the columns `hash` and `mode`, in that order. */
  lemma RulesInsertText(hash: string, mode: string)
    ensures Sql.InsertRow(Sql.Rules, [("hash", Sql.Str(hash)), ("mode", Sql.Str(mode))]).query.text
         == "INSERT INTO rules (hash, mode) VALUES (?, ?)"
  {
    var row := [("hash", Sql.Str(hash)), ("mode", Sql.Str(mode))];
    var r := Sql.InsertRow(Sql.Rules, row);
    assert r.row == row by {
      assert row[1..][1..] == [];
    }
    var cols, marks := Text.Join(Sql.Keys(r.row), ", "), Text.Join(Sql.Marks(|r.row|), ", ");
    assert cols == "hash, mode" by {
      assert Sql.Keys(row) == ["hash", "mode"];
      Text.JoinCons("hash", ["mode"], ", ");
    }
    assert marks == "?, ?" by {
      assert Sql.Marks(2) == ["?", "?"];
      Text.JoinCons("?", ["?"], ", ");
    }
    assert r.query.text == "INSERT INTO " + "rules" + " (" + cols + ") VALUES (" + marks + ")";
    RulesStatement(cols, marks);
  }

  lemma RulesStatement(cols: string, marks: string)
    requires cols == "hash, mode" && marks == "?, ?"
    ensures "INSERT INTO " + "rules" + " (" + cols + ") VALUES (" + marks + ")"
         == "INSERT INTO rules (hash, mode) VALUES (?, ?)"
  {
  }

  /** The rule the gate reads back for a stored mode. */
  function RuleOf(mode: string): Proxy.Rule {
    if mode == "allow" then Proxy.Allow else Proxy.Deny
  }

  /** The mode as evidently intended: each route stores its own name. */
  function ModerationModeIntended(route: ModerationRoute): (mode: string)
    ensures RuleOf(mode) == (if route == AllowRoute then Proxy.Allow else Proxy.Deny)
  {
    match route
    case AllowRoute => "allow"
    case DenyRoute => "deny"
  }

  /**
   * As written, denying a hash stores a rule that the gate reads as an
   * explicit allow: content the default settings deny is then served.
   */
  lemma DenyRouteAllows(hash: string, isHtml: bool, agents: seq<string>, headers: Proxy.Headers,
                        path: string, backend: Proxy.Backend)
    requires Proxy.Identifier(backend, path) == Some(hash) && hash != ""
    requires backend.rule(hash) == Success(Some(RuleOf(ModerationMode(DenyRoute))))
    ensures Proxy.Decide(isHtml, Proxy.DefaultSettings, agents, headers, path, backend).allowed
  {
  }

  /**
   * With the intended mode, denying a hash keeps it denied by the gate unless
   * an allowed user agent or the baseline admits it.
   */
  lemma DenyRouteDeniesIntended(hash: string, isHtml: bool, agents: seq<string>, headers: Proxy.Headers,
                                path: string, backend: Proxy.Backend, settings: Proxy.Settings)
    requires Proxy.Identifier(backend, path) == Some(hash) && hash != ""
    requires backend.rule(hash) == Success(Some(RuleOf(ModerationModeIntended(DenyRoute))))
    ensures Proxy.Decide(isHtml, settings, agents, headers, path, backend).allowed
        <==> Proxy.AgentMatch(agents, headers) || Proxy.Baseline(settings, isHtml)
  {
  }

  /** Lines 73-81: 200 when ready, 503 otherwise. */
  function ReadinessStatus(node: Readiness.Node): (status: int)
    ensures status == 200 <==> Readiness.CheckReadiness(node).ready
    ensures status == 200 || status == 503
  {
    if Readiness.CheckReadiness(node).ready then 200 else 503
  }

  /** Lines 137-142: the proxy options; no instance name is passed. */
  function ProxyOptions(config: Config.AppConfig, manager: Stamp.Manager): (o: Proxy.Options)
    ensures o.instanceName == None
    ensures o.removePinHeader <==> config.removePinHeader != Some(false)
    ensures o.hostname == Some(config.hostname) && o.beeApiUrl == config.beeApiUrl && o.stampManager == manager
  {
    Proxy.Options(config.beeApiUrl, config.removePinHeader.GetOr(true), None, manager, Some(config.hostname))
  }

  /**
   * As wired, the access gate always starts from the default settings, whatever
   * the configured instance name and whatever the settings table holds.
   */
  lemma WiredWithDefaults(config: Config.AppConfig, manager: Stamp.Manager, backend: Proxy.Backend)
    ensures Proxy.SettingsSource(ProxyOptions(config, manager), backend) == Success(Proxy.DefaultSettings)
  {
  }

  /** End to end: with no pin variable set, the wired proxy strips the pin header. */
  lemma PinHeaderStrippedByDefault(env: Config.Env, manager: Stamp.Manager)
    requires !Config.Truthy(Config.Var(env, "REMOVE_PIN_HEADER"))
    ensures ProxyOptions(Config.GetAppConfig(env), manager).removePinHeader
  {
  }
}

=== FILE: sql.dfy ===
/**
 * SQL text and parameter construction (src/database/Schema.ts and
 * src/database/Database.ts): the clause builder behind every `get…Rows`
 * wrapper, and the statements `insert` and `update` send. The driver is not
 * modelled; a statement is its text and its positional parameters.
 *
 * A JavaScript object is its own properties in key order, keys distinct.
 */
module Sql {
  import opened Wrappers
  import Text

  datatype Value = Null | Num(n: int) | Str(s: string) | Flag(b: bool)

  type Object = seq<(string, Value)>

  datatype Direction = Asc | Desc

  datatype Order = Order(column: string, direction: Direction)

  /** `limit` is a JavaScript number; zero is falsy and omitted. */
  datatype SelectOptions = SelectOptions(order: Option<Order>, limit: Option<int>)

  datatype Query = Query(text: string, params: seq<Value>)

  datatype Table = AllowedUserAgents | ApprovalRequests | Reports | Rewrites | Rules | Settings

  function TableName(t: Table): string {
    match t
    case AllowedUserAgents => "allowedUserAgents"
    case ApprovalRequests => "approvalRequests"
    case Reports => "reports"
    case Rewrites => "rewrites"
    case Rules => "rules"
    case Settings => "settings"
  }

  function DirectionText(d: Direction): string {
    match d
    case Asc => "ASC"
    case Desc => "DESC"
  }

  /** `Object.keys(o)` */
  function Keys(o: Object): (r: seq<string>)
    ensures |r| == |o| && forall i :: 0 <= i < |o| ==> r[i] == o[i].0
  {
    seq(|o|, i requires 0 <= i < |o| => o[i].0)
  }

  /** `Object.values(o)` */
  function Values(o: Object): (r: seq<Value>)
    ensures |r| == |o| && forall i :: 0 <= i < |o| ==> r[i] == o[i].1
  {
    seq(|o|, i requires 0 <= i < |o| => o[i].1)
  }

  /** `delete o[key]`: the other properties, in their order. */
  function Without(o: Object, key: string): (r: Object)
    ensures forall p :: p in r <==> p in o && p.0 != key
    ensures |r| <= |o|
  {
    if |o| == 0 then []
    else (if o[0].0 == key then [] else [o[0]]) + Without(o[1..], key)
  }

  /**
   * Deleting a property keeps the others in their order: deleting from two
   * adjoining runs of properties is deleting from each run in turn.
   */
  lemma {:induction false} WithoutKeepsOrder(a: Object, b: Object, key: string)
    ensures Without(a + b, key) == Without(a, key) + Without(b, key)
    decreases |a|
  {
    if |a| > 0 {
      var head := if a[0].0 == key then [] else [a[0]];
      var ab, rest, wb := Without(a[1..] + b, key), Without(a[1..], key), Without(b, key);
      assert Without(a + b, key) == head + ab by {
        assert (a + b)[1..] == a[1..] + b;
        assert (a + b)[0] == a[0];
      }
      assert ab == rest + wb by { WithoutKeepsOrder(a[1..], b, key); }
      assert Without(a, key) == head + rest;
      Assoc(head, rest, wb);
    } else {
      assert a + b == b;
    }
  }

  /** Counts the `?` placeholders of a statement. */
  function Placeholders(text: string): nat {
    Text.Count(text, '?')
  }

  /** No column name holds a `?`, so every `?` in a statement is a placeholder the builder wrote. */
  predicate PlainNames(names: seq<string>) {
    forall i :: 0 <= i < |names| ==> Placeholders(names[i]) == 0
  }

  /** One `name<suffix>` per name, in order. */
  function Suffixed(names: seq<string>, suffix: string): (r: seq<string>)
    ensures |r| == |names| && forall i :: 0 <= i < |names| ==> r[i] == names[i] + suffix
  {
    seq(|names|, i requires 0 <= i < |names| => names[i] + suffix)
  }

  /**
   * The text before each placeholder of a `name = ?` list: `first` or `sep`,
   * then the column whose value the placeholder takes, then ` = `.
   */
  function Bindings(names: seq<string>, first: string, sep: string): (r: seq<string>)
    ensures |r| == |names|
    ensures forall i :: 0 <= i < |names| ==> r[i] == (if i == 0 then first else sep) + names[i] + " = "
  {
    seq(|names|, i requires 0 <= i < |names| => (if i == 0 then first else sep) + names[i] + " = ")
  }

  /**
   * A `name = ?` list between a head and further text, split at its
   * placeholders: one binding per name, then the further text's own parts.
   */
  lemma {:induction false} MarkedList(names: seq<string>, first: string, sep: string, tail: seq<string>)
    requires |names| >= 1 && |tail| >= 1
    ensures first + Text.Join(Suffixed(names, " = ?"), sep) + Text.Join(tail, "?")
         == Text.Join(Bindings(names, first, sep) + tail, "?")
    decreases |names|
  {
    var n, rest := names[0], names[1..];
    var head, jt := first + n + " = ", Text.Join(tail, "?");
    assert " = ?" == " = " + "?";
    if |names| == 1 {
      assert Text.Join(Suffixed(names, " = ?"), sep) == n + " = " + "?";
      assert Bindings(names, first, sep) + tail == [head] + tail;
      Text.JoinCons(head, tail, "?");
      Flatten(first, n, " = ", "?", jt);
    } else {
      var js := Text.Join(Suffixed(rest, " = ?"), sep);
      assert Text.Join(Suffixed(names, " = ?"), sep) == n + " = " + "?" + sep + js by {
        assert Suffixed(names, " = ?") == [n + " = ?"] + Suffixed(rest, " = ?");
        Text.JoinCons(n + " = ?", Suffixed(rest, " = ?"), sep);
      }
      var later := Bindings(rest, sep, sep) + tail;
      assert sep + js + jt == Text.Join(later, "?") by { MarkedList(rest, sep, sep, tail); }
      assert Text.Join(Bindings(names, first, sep) + tail, "?") == head + "?" + Text.Join(later, "?") by {
        assert Bindings(names, first, sep) + tail == [head] + later;
        Text.JoinCons(head, later, "?");
      }
      Shift(first, n, " = ", "?", sep, js, jt);
    }
  }

  lemma Flatten<T>(a: seq<T>, b: seq<T>, c: seq<T>, d: seq<T>, e: seq<T>)
    ensures a + (b + c + d) + e == (a + b + c) + d + e
  {
  }

  lemma Shift<T>(a: seq<T>, b: seq<T>, c: seq<T>, d: seq<T>, e: seq<T>, f: seq<T>, g: seq<T>)
    ensures a + (b + c + d + e + f) + g == (a + b + c) + d + (e + f + g)
  {
  }

  /** The pieces of a split hold no `?` when the names hold none. */
  lemma BindingsPlain(names: seq<string>, first: string, sep: string)
    requires PlainNames(names) && '?' !in first && '?' !in sep
    ensures forall i :: 0 <= i < |names| ==> '?' !in Bindings(names, first, sep)[i]
  {
    forall i | 0 <= i < |names| ensures '?' !in Bindings(names, first, sep)[i] {
      Text.CountZero(names[i], '?');
    }
  }

  // ------------------------------------------------------------- buildSelect

  function WhereClause(filter: Option<Object>): string {
    if filter.Some? then " WHERE " + Text.Join(Suffixed(Keys(filter.value), " = ?"), " AND ") else ""
  }

  function OrderClause(options: Option<SelectOptions>): string {
    if options.Some? && options.value.order.Some? then
      " ORDER BY " + options.value.order.value.column + " " + DirectionText(options.value.order.value.direction)
    else ""
  }

  function LimitClause(options: Option<SelectOptions>): string {
    if options.Some? && options.value.limit.Some? && options.value.limit.value != 0 then
      " LIMIT " + Text.IntToString(options.value.limit.value)
    else ""
  }

  /**
   * `buildSelect`: the clause that follows `SELECT * FROM <table>` and its
   * parameters. Any filter object, even an empty one, opens a WHERE clause.
   */
  function BuildSelect(filter: Option<Object>, options: Option<SelectOptions>): (q: Query)
    ensures q.params == if filter.Some? then Values(filter.value) else []
    ensures filter.Some? <==> Text.StartsWith(q.text, " WHERE ")
    ensures filter.Some? ==>
      Text.StartsWith(q.text, " WHERE " + Text.Join(Suffixed(Keys(filter.value), " = ?"), " AND "))
  {
    var text := WhereClause(filter) + OrderClause(options) + LimitClause(options);
    assert filter.None? ==> !Text.StartsWith(text, " WHERE ") by {
      if filter.None? && |text| >= 7 {
        assert text[1] == (if OrderClause(options) != "" then 'O' else 'L');
      }
    }
    Query(text, if filter.Some? then Values(filter.value) else [])
  }

  /** Each suffixed name holds exactly the suffix's placeholders. */
  lemma SuffixedPlaceholders(names: seq<string>, suffix: string)
    requires PlainNames(names) && Placeholders(suffix) == 1
    ensures forall i :: 0 <= i < |names| ==> Placeholders(Suffixed(names, suffix)[i]) == 1
  {
    forall i | 0 <= i < |names| ensures Placeholders(Suffixed(names, suffix)[i]) == 1 {
      Text.CountConcat(names[i], suffix, '?');
    }
  }

  /** `k = ?` for each key, joined: one placeholder per key. */
  lemma JoinedPlaceholders(names: seq<string>, suffix: string, sep: string)
    requires PlainNames(names) && Placeholders(suffix) == 1 && Placeholders(sep) == 0
    ensures Placeholders(Text.Join(Suffixed(names, suffix), sep)) == |names|
  {
    SuffixedPlaceholders(names, suffix);
    Text.CountJoinUniform(Suffixed(names, suffix), sep, '?', 1);
  }

  /** A literal without `?` adds no placeholder. */
  lemma Plain(s: string)
    requires '?' !in s
    ensures Placeholders(s) == 0
  {
    Text.CountAbsent(s, '?');
  }

  lemma WherePlaceholders(filter: Option<Object>)
    requires filter.Some? ==> PlainNames(Keys(filter.value))
    ensures Placeholders(WhereClause(filter)) == if filter.Some? then |filter.value| else 0
  {
    if filter.Some? {
      Plain(" = ");
      Text.CountConcat(" = ", "?", '?');
      Plain(" AND ");
      JoinedPlaceholders(Keys(filter.value), " = ?", " AND ");
      Plain(" WHERE ");
      Text.CountConcat(" WHERE ", Text.Join(Suffixed(Keys(filter.value), " = ?"), " AND "), '?');
    }
  }

  lemma OrderPlaceholders(options: Option<SelectOptions>)
    requires options.Some? && options.value.order.Some? ==> Placeholders(options.value.order.value.column) == 0
    ensures Placeholders(OrderClause(options)) == 0
  {
    if options.Some? && options.value.order.Some? {
      var ord := options.value.order.value;
      var s1 := " ORDER BY " + ord.column;
      assert Placeholders(s1) == 0 by { Plain(" ORDER BY "); Text.CountConcat(" ORDER BY ", ord.column, '?'); }
      var s2 := s1 + " ";
      assert Placeholders(s2) == 0 by { Plain(" "); Text.CountConcat(s1, " ", '?'); }
      var dir := DirectionText(ord.direction);
      assert Placeholders(dir) == 0 by {
        match ord.direction
        case Asc => Plain("ASC");
        case Desc => Plain("DESC");
      }
      Text.CountConcat(s2, dir, '?');
    }
  }

  lemma LimitPlaceholders(options: Option<SelectOptions>)
    ensures Placeholders(LimitClause(options)) == 0
  {
    if options.Some? && options.value.limit.Some? && options.value.limit.value != 0 {
      Plain(" LIMIT ");
      Text.IntToStringHasNo(options.value.limit.value, '?');
      Text.CountConcat(" LIMIT ", Text.IntToString(options.value.limit.value), '?');
    }
  }

  /**
   * The clause carries exactly one placeholder per parameter, provided the
   * filter keys and the order column hold no `?` themselves.
   */
  lemma SelectPlaceholdersMatch(filter: Option<Object>, options: Option<SelectOptions>)
    requires filter.Some? ==> PlainNames(Keys(filter.value))
    requires options.Some? && options.value.order.Some? ==> Placeholders(options.value.order.value.column) == 0
    ensures Placeholders(BuildSelect(filter, options).text) == |BuildSelect(filter, options).params|
  {
    var w, o, l := WhereClause(filter), OrderClause(options), LimitClause(options);
    WherePlaceholders(filter);
    OrderPlaceholders(options);
    LimitPlaceholders(options);
    Text.CountConcat(w, o, '?');
    Text.CountConcat(w + o, l, '?');
  }

  /**
   * Placeholder i of a filtered select follows `<key i> = `, and parameter i is
   * that key's value: split at its placeholders, the clause reads ` WHERE k0 = `,
   * ` AND k1 = `, and so on in key order, and then the ORDER BY and LIMIT text.
   */
  lemma SelectBindings(f: Object, options: Option<SelectOptions>)
    requires |f| >= 1 && PlainNames(Keys(f))
    requires options.Some? && options.value.order.Some? ==> Placeholders(options.value.order.value.column) == 0
    ensures Text.Split(BuildSelect(Some(f), options).text, '?')
         == Bindings(Keys(f), " WHERE ", " AND ") + [BuildSelect(None, options).text]
    ensures BuildSelect(Some(f), options).params == Values(f)
  {
    var o, l := OrderClause(options), LimitClause(options);
    var pieces := Bindings(Keys(f), " WHERE ", " AND ") + [o + l];
    SelectText(Some(f), options);
    SelectText(None, options);
    assert BuildSelect(Some(f), options).text == Text.Join(pieces, "?") by {
      MarkedList(Keys(f), " WHERE ", " AND ", [o + l]);
      Regroup(BuildSelect(Some(f), options).text, WhereClause(Some(f)), o + l,
              WhereClause(Some(f)), o, l);
    }
    assert '?' !in o + l by {
      OrderPlaceholders(options);
      LimitPlaceholders(options);
      Text.CountConcat(o, l, '?');
      Text.CountZero(o + l, '?');
    }
    BindingsPlain(Keys(f), " WHERE ", " AND ");
    Text.JoinSplit(pieces, '?');
  }

  /**
   * The clause is WHERE, then ORDER BY, then LIMIT: a select with a filter and
   * options is the filter-only clause followed by the options-only clause, and
   * the options clause is the order-only clause followed by the limit-only one.
   * An order alone renders as ` ORDER BY <column> <direction>`, a truthy limit
   * alone as ` LIMIT <n>`, and no filter and no options give the empty clause.
   */
  lemma SelectClauses(filter: Option<Object>, order: Option<Order>, limit: Option<int>)
    ensures var options := Some(SelectOptions(order, limit));
      BuildSelect(filter, options).text == BuildSelect(filter, None).text + BuildSelect(None, options).text
    ensures BuildSelect(None, Some(SelectOptions(order, limit))).text
         == BuildSelect(None, Some(SelectOptions(order, None))).text + BuildSelect(None, Some(SelectOptions(None, limit))).text
    ensures order.Some? ==>
      BuildSelect(None, Some(SelectOptions(order, None))).text
      == " ORDER BY " + order.value.column + " " + DirectionText(order.value.direction)
    ensures limit.Some? && limit.value != 0 ==>
      BuildSelect(None, Some(SelectOptions(None, limit))).text == " LIMIT " + Text.IntToString(limit.value)
    ensures BuildSelect(None, None).text == ""
  {
    FilterThenOptions(filter, Some(SelectOptions(order, limit)));
    OrderThenLimit(order, limit);
    SelectText(None, Some(SelectOptions(order, None)));
    SelectText(None, Some(SelectOptions(None, limit)));
    SelectText(None, None);
  }

  /** The clause text, as its three parts. */
  lemma SelectText(filter: Option<Object>, options: Option<SelectOptions>)
    ensures BuildSelect(filter, options).text == WhereClause(filter) + OrderClause(options) + LimitClause(options)
    ensures filter.None? ==> BuildSelect(filter, options).text == OrderClause(options) + LimitClause(options)
    ensures options.None? ==> BuildSelect(filter, options).text == WhereClause(filter)
  {
    assert "" + OrderClause(options) == OrderClause(options);
    assert WhereClause(filter) + "" + "" == WhereClause(filter);
  }

  lemma FilterThenOptions(filter: Option<Object>, options: Option<SelectOptions>)
    ensures BuildSelect(filter, options).text == BuildSelect(filter, None).text + BuildSelect(None, options).text
  {
    SelectText(filter, options);
    SelectText(filter, None);
    SelectText(None, options);
    Regroup(BuildSelect(filter, options).text, BuildSelect(filter, None).text, BuildSelect(None, options).text,
            WhereClause(filter), OrderClause(options), LimitClause(options));
  }

  lemma Assoc<T>(x: seq<T>, y: seq<T>, z: seq<T>)
    ensures x + y + z == x + (y + z)
  {
  }

  lemma Regroup(whole: string, first: string, second: string, w: string, o: string, l: string)
    requires whole == w + o + l && first == w && second == o + l
    ensures whole == first + second
  {
    Assoc(w, o, l);
  }

  lemma OrderThenLimit(order: Option<Order>, limit: Option<int>)
    ensures BuildSelect(None, Some(SelectOptions(order, limit))).text
         == BuildSelect(None, Some(SelectOptions(order, None))).text + BuildSelect(None, Some(SelectOptions(None, limit))).text
  {
    var both, o, l := Some(SelectOptions(order, limit)), Some(SelectOptions(order, None)), Some(SelectOptions(None, limit));
    SelectText(None, both);
    SelectText(None, o);
    SelectText(None, l);
    assert OrderClause(both) == OrderClause(o) && LimitClause(both) == LimitClause(l);
    assert LimitClause(o) == "" && OrderClause(l) == "";
    assert OrderClause(o) + "" == OrderClause(o);
    assert "" + LimitClause(l) == LimitClause(l);
  }

  /** An empty filter object leaves a dangling ` WHERE ` with no condition and no parameter. */
  lemma EmptyFilterDangles(options: Option<SelectOptions>)
    requires options.None? || (options.value.order.None? && options.value.limit.None?)
    ensures BuildSelect(Some([]), options) == Query(" WHERE ", [])
  {
    assert Suffixed(Keys([]), " = ?") == [];
  }

  /** A zero limit is falsy: the clause is exactly the one without a limit. */
  lemma ZeroLimitOmitted(filter: Option<Object>, order: Option<Order>)
    ensures BuildSelect(filter, Some(SelectOptions(order, Some(0))))
         == BuildSelect(filter, Some(SelectOptions(order, None)))
  {
  }

  /** The per-table `get…Rows` family: `SELECT * FROM <table>` followed by the clause. */
  function SelectFrom(t: Table, filter: Option<Object>, options: Option<SelectOptions>): (q: Query)
    ensures Text.StartsWith(q.text, "SELECT * FROM " + TableName(t))
    ensures q.text[|"SELECT * FROM " + TableName(t)|..] == BuildSelect(filter, options).text
    ensures q.params == BuildSelect(filter, options).params
  {
    var clause := BuildSelect(filter, options);
    Query("SELECT * FROM " + TableName(t) + clause.text, clause.params)
  }

  /** Distinct tables are addressed by distinct names, so no wrapper reads another's table. */
  lemma TableNamesDistinct(a: Table, b: Table)
    requires a != b
    ensures TableName(a) != TableName(b)
  {
  }

  // -------------------------------------------------------- insert and update

  /** What `insert` or `update` sends, and the caller's object after its `id` was deleted. */
  datatype Written = Written(query: Query, row: Object)

  /** `insert(table, row)` */
  function Insert(table: string, row: Object): (r: Written)
    ensures r.row == Without(row, "id")
    ensures r.query.params == Values(r.row)
    ensures "id" !in Keys(r.row)
    ensures r.query.text == "INSERT INTO " + table + " (" + Text.Join(Keys(r.row), ", ") + ") VALUES ("
                            + Text.Join(Marks(|r.row|), ", ") + ")"
  {
    var kept := Without(row, "id");
    Written(Query(InsertStatement(table, Keys(kept)), Values(kept)), kept)
  }

  /** `n` placeholders. */
  function Marks(n: nat): (r: seq<string>)
    ensures |r| == n && forall i :: 0 <= i < n ==> r[i] == "?"
  {
    seq(n, _ => "?")
  }

  /** `a, b, …` adds the placeholders of its items. */
  lemma ListPlaceholders(parts: seq<string>, k: nat)
    requires forall i :: 0 <= i < |parts| ==> Placeholders(parts[i]) == k
    ensures Placeholders(Text.Join(parts, ", ")) == k * |parts|
  {
    Plain(", ");
    Text.CountJoinUniform(parts, ", ", '?', k);
  }

  /** The statement `insert` sends for these columns. */
  function InsertStatement(table: string, columns: seq<string>): string {
    "INSERT INTO " + table + " (" + Text.Join(columns, ", ") + ") VALUES (" + Text.Join(Marks(|columns|), ", ") + ")"
  }

  lemma InsertHead(table: string)
    requires Placeholders(table) == 0
    ensures Placeholders("INSERT INTO " + table + " (") == 0
  {
    var s1 := "INSERT INTO " + table;
    assert Placeholders(s1) == 0 by { Plain("INSERT INTO "); Text.CountConcat("INSERT INTO ", table, '?'); }
    Plain(" (");
    Text.CountConcat(s1, " (", '?');
  }

  lemma InsertStatementPlaceholders(table: string, columns: seq<string>)
    requires Placeholders(table) == 0 && PlainNames(columns)
    ensures Placeholders(InsertStatement(table, columns)) == |columns|
  {
    var cols, marks := Text.Join(columns, ", "), Text.Join(Marks(|columns|), ", ");
    ListPlaceholders(columns, 0);
    ListPlaceholders(Marks(|columns|), 1);
    var s2 := "INSERT INTO " + table + " (";
    InsertHead(table);
    var s3 := s2 + cols;
    assert Placeholders(s3) == 0 by { Text.CountConcat(s2, cols, '?'); }
    var s4 := s3 + ") VALUES (";
    assert Placeholders(s4) == 0 by { Plain(") VALUES ("); Text.CountConcat(s3, ") VALUES (", '?'); }
    var s5 := s4 + marks;
    assert Placeholders(s5) == |columns| by { Text.CountConcat(s4, marks, '?'); }
    Plain(")");
    Text.CountConcat(s5, ")", '?');
  }

  /** Reads a `, `-separated column list back: split at the commas, drop the space after each comma. */
  function Columns(list: string): (r: seq<string>)
    ensures |r| == |Text.Split(list, ',')|
  {
    var parts := Text.Split(list, ',');
    seq(|parts|, i requires 0 <= i < |parts| =>
      if i > 0 && |parts[i]| > 0 && parts[i][0] == ' ' then parts[i][1..] else parts[i])
  }

  /** The names after `lead`, each later one after a space: the parts of a list joined by `,` alone. */
  function Spaced(names: seq<string>, lead: string): (r: seq<string>)
    ensures |r| == |names|
    ensures forall i :: 0 <= i < |names| ==> r[i] == (if i == 0 then lead else " ") + names[i]
  {
    seq(|names|, i requires 0 <= i < |names| => (if i == 0 then lead else " ") + names[i])
  }

  lemma {:induction false} JoinSpaced(names: seq<string>, lead: string)
    requires |names| >= 1
    ensures lead + Text.Join(names, ", ") == Text.Join(Spaced(names, lead), ",")
    decreases |names|
  {
    if |names| > 1 {
      var n, rest := names[0], names[1..];
      var jr := Text.Join(rest, ", ");
      assert Text.Join(names, ", ") == n + ", " + jr by {
        assert names == [n] + rest;
        Text.JoinCons(n, rest, ", ");
      }
      assert " " + jr == Text.Join(Spaced(rest, " "), ",") by { JoinSpaced(rest, " "); }
      assert Text.Join(Spaced(names, lead), ",") == (lead + n) + "," + Text.Join(Spaced(rest, " "), ",") by {
        assert Spaced(names, lead) == [lead + n] + Spaced(rest, " ");
        Text.JoinCons(lead + n, Spaced(rest, " "), ",");
      }
      assert ", " == "," + " ";
      Flatten(lead, n, ",", " ", jr);
      Assoc(lead + n + ",", " ", jr);
    }
  }

  /**
   * A column list reads back as its columns, in order, when no column name
   * holds a comma.
   */
  lemma ColumnListRoundTrip(names: seq<string>)
    requires |names| >= 1
    requires forall i :: 0 <= i < |names| ==> ',' !in names[i]
    ensures Columns(Text.Join(names, ", ")) == names
  {
    JoinSpaced(names, "");
    assert "" + Text.Join(names, ", ") == Text.Join(names, ", ");
    var parts := Spaced(names, "");
    forall i | 0 <= i < |names| ensures ',' !in parts[i] {
      assert parts[i] == (if i == 0 then "" else " ") + names[i];
    }
    Text.JoinSplit(parts, ',');
    forall i | 0 <= i < |names| ensures Columns(Text.Join(names, ", "))[i] == names[i] {
      if i == 0 {
        assert parts[0] == names[0];
      } else {
        assert parts[i] == " " + names[i] && parts[i][1..] == names[i];
      }
    }
  }

  /**
   * The column list of an insert reads back as the object's keys, in order,
   * and is followed by one placeholder per value: column i takes parameter i.
   */
  lemma InsertColumns(table: string, row: Object)
    requires |Without(row, "id")| >= 1
    requires forall i :: 0 <= i < |Without(row, "id")| ==> ',' !in Without(row, "id")[i].0
    ensures var r := Insert(table, row);
      r.query.text == "INSERT INTO " + table + " (" + Text.Join(Keys(r.row), ", ") + ") VALUES ("
                      + Text.Join(Marks(|r.query.params|), ", ") + ")"
      && Columns(Text.Join(Keys(r.row), ", ")) == Keys(r.row)
      && |Keys(r.row)| == |r.query.params|
  {
    ColumnListRoundTrip(Keys(Without(row, "id")));
  }

  /** The placeholders of an insert match its parameters, one per column. */
  lemma InsertPlaceholdersMatch(table: string, row: Object)
    requires Placeholders(table) == 0 && PlainNames(Keys(Without(row, "id")))
    ensures Placeholders(Insert(table, row).query.text) == |Insert(table, row).query.params|
  {
    InsertStatementPlaceholders(table, Keys(Without(row, "id")));
  }

  /** The optional `{ key, value }` of an atomic update. */
  datatype Guard = Guard(key: string, value: Value)

  /** `update(table, id, row, atomicHelper)` */
  function Update(table: string, id: int, row: Object, helper: Option<Guard>): (r: Written)
    ensures r.row == Without(row, "id")
    ensures |r.query.params| == |r.row| + 2
    ensures r.query.params[..|r.query.params| - 2] == Values(r.row)
    ensures r.query.params[|r.query.params| - 2] == Num(id)
    ensures r.query.params[|r.query.params| - 1] == if helper.Some? then helper.value.value else Null
    ensures r.query.text == "UPDATE " + table + " SET " + Text.Join(Suffixed(Keys(r.row), " = ?"), ", ")
                            + " WHERE id = ?" + (if helper.Some? then " AND " + helper.value.key + " = ?" else "")
  {
    var kept := Without(row, "id");
    Written(Query(UpdateStatement(table, Keys(kept), if helper.Some? then Some(helper.value.key) else None),
                  Values(kept) + [Num(id), if helper.Some? then helper.value.value else Null]),
            kept)
  }

  /** The statement `update` sends for these columns and this guard column. */
  function UpdateStatement(table: string, columns: seq<string>, guardKey: Option<string>): string {
    "UPDATE " + table + " SET " + Text.Join(Suffixed(columns, " = ?"), ", ") + IdCondition + GuardText(guardKey)
  }

  function GuardText(guardKey: Option<string>): string {
    if guardKey.Some? then " AND " + guardKey.value + " = ?" else ""
  }

  /** `" = ?"` holds one placeholder. */
  lemma Mark()
    ensures Placeholders(" = ?") == 1
  {
    Plain(" = ");
    Text.CountConcat(" = ", "?", '?');
  }

  /** The id condition of an update, ` WHERE id = ?`. */
  const IdCondition := " WHERE id" + " = ?"

  /** The id condition holds one placeholder. */
  lemma IdMark()
    ensures Placeholders(IdCondition) == 1
  {
    Plain(" WHERE id");
    Mark();
    Text.CountConcat(" WHERE id", " = ?", '?');
  }

  lemma GuardPlaceholders(guardKey: Option<string>)
    requires guardKey.Some? ==> Placeholders(guardKey.value) == 0
    ensures Placeholders(GuardText(guardKey)) == if guardKey.Some? then 1 else 0
  {
    if guardKey.Some? {
      Plain(" AND ");
      Mark();
      Text.CountConcat(" AND ", guardKey.value, '?');
      Text.CountConcat(" AND " + guardKey.value, " = ?", '?');
    }
  }

  lemma UpdateStatementPlaceholders(table: string, columns: seq<string>, guardKey: Option<string>)
    requires Placeholders(table) == 0 && PlainNames(columns)
    requires guardKey.Some? ==> Placeholders(guardKey.value) == 0
    ensures Placeholders(UpdateStatement(table, columns, guardKey)) == |columns| + 1 + (if guardKey.Some? then 1 else 0)
  {
    var assignments := Text.Join(Suffixed(columns, " = ?"), ", ");
    assert Placeholders(assignments) == |columns| by {
      Mark();
      Plain(", ");
      JoinedPlaceholders(columns, " = ?", ", ");
    }
    GuardPlaceholders(guardKey);
    var s1 := "UPDATE " + table;
    assert Placeholders(s1) == 0 by { Plain("UPDATE "); Text.CountConcat("UPDATE ", table, '?'); }
    var s2 := s1 + " SET ";
    assert Placeholders(s2) == 0 by { Plain(" SET "); Text.CountConcat(s1, " SET ", '?'); }
    var s3 := s2 + assignments;
    assert Placeholders(s3) == |columns| by { Text.CountConcat(s2, assignments, '?'); }
    var s4 := s3 + IdCondition;
    assert Placeholders(s4) == |columns| + 1 by {
      IdMark();
      Text.CountConcat(s3, IdCondition, '?');
    }
    Text.CountConcat(s4, GuardText(guardKey), '?');
  }

  /**
   * Placeholders of an update: one per column, one for the id, one for the
   * guard's key when given; without a guard the trailing `null` parameter has
   * no placeholder.
   */
  lemma UpdatePlaceholders(table: string, id: int, row: Object, helper: Option<Guard>)
    requires Placeholders(table) == 0 && PlainNames(Keys(Without(row, "id")))
    requires helper.Some? ==> Placeholders(helper.value.key) == 0
    ensures var q := Update(table, id, row, helper).query;
      Placeholders(q.text) == |q.params| - (if helper.Some? then 0 else 1)
  {
    UpdateStatementPlaceholders(table, Keys(Without(row, "id")), if helper.Some? then Some(helper.value.key) else None);
  }

  /**
   * Placeholder i of an update with columns follows `<column i> = `, and
   * parameter i is that column's value: split at its placeholders, the
   * statement reads `UPDATE t SET c0 = `, `, c1 = `, and so on in key order,
   * then ` WHERE id = ` for the id parameter and, with a guard only,
   * ` AND <key> = ` for the guard's value.
   */
  lemma UpdateBindings(table: string, id: int, row: Object, helper: Option<Guard>)
    requires Placeholders(table) == 0
    requires |Without(row, "id")| >= 1 && PlainNames(Keys(Without(row, "id")))
    requires helper.Some? ==> Placeholders(helper.value.key) == 0
    ensures Text.Split(Update(table, id, row, helper).query.text, '?')
         == Bindings(Keys(Without(row, "id")), "UPDATE " + table + " SET ", ", ") + [" WHERE id = "]
            + (if helper.Some? then [" AND " + helper.value.key + " = ", ""] else [""])
  {
    var guardKey := if helper.Some? then Some(helper.value.key) else None;
    UpdateStatementBindings(table, Keys(Without(row, "id")), guardKey);
  }

  lemma UpdateStatementBindings(table: string, columns: seq<string>, guardKey: Option<string>)
    requires Placeholders(table) == 0 && |columns| >= 1 && PlainNames(columns)
    requires guardKey.Some? ==> Placeholders(guardKey.value) == 0
    ensures Text.Split(UpdateStatement(table, columns, guardKey), '?')
         == Bindings(columns, "UPDATE " + table + " SET ", ", ") + UpdateTail(guardKey)
  {
    var head := "UPDATE " + table + " SET ";
    var pieces := Bindings(columns, head, ", ") + UpdateTail(guardKey);
    UpdateStatementPieces(table, columns, guardKey);
    assert '?' !in head by {
      Text.CountZero(table, '?');
    }
    BindingsPlain(columns, head, ", ");
    assert guardKey.Some? ==> '?' !in guardKey.value by {
      if guardKey.Some? { Text.CountZero(guardKey.value, '?'); }
    }
    Text.JoinSplit(pieces, '?');
  }

  /** The pieces after the last column: the id condition and, with a guard, the guard's condition. */
  function UpdateTail(guardKey: Option<string>): seq<string> {
    [" WHERE id = "] + (if guardKey.Some? then [" AND " + guardKey.value + " = ", ""] else [""])
  }

  lemma UpdateStatementPieces(table: string, columns: seq<string>, guardKey: Option<string>)
    requires |columns| >= 1
    ensures UpdateStatement(table, columns, guardKey)
         == Text.Join(Bindings(columns, "UPDATE " + table + " SET ", ", ") + UpdateTail(guardKey), "?")
  {
    var head := "UPDATE " + table + " SET ";
    var assignments := Text.Join(Suffixed(columns, " = ?"), ", ");
    var conditions := IdCondition + GuardText(guardKey);
    assert Text.Join(UpdateTail(guardKey), "?") == conditions by { ConditionPieces(guardKey); }
    MarkedList(columns, head, ", ", UpdateTail(guardKey));
    Regroup(UpdateStatement(table, columns, guardKey), head + assignments, conditions,
            head + assignments, IdCondition, GuardText(guardKey));
  }

  /** The id condition and the guard, split at their placeholders. */
  lemma ConditionPieces(guardKey: Option<string>)
    ensures Text.Join([" WHERE id = "] + (if guardKey.Some? then [" AND " + guardKey.value + " = ", ""] else [""]), "?")
         == IdCondition + GuardText(guardKey)
  {
    assert IdCondition == " WHERE id = " + "?";
    if guardKey.Some? {
      var g := " AND " + guardKey.value + " = ";
      assert GuardText(guardKey) == g + "?";
      Text.JoinCons(g, [""], "?");
      Text.JoinCons(" WHERE id = ", [g, ""], "?");
      assert [" WHERE id = "] + [g, ""] == [" WHERE id = ", g, ""];
    } else {
      Text.JoinCons(" WHERE id = ", [""], "?");
    }
  }

  /** The per-table `update…Row` family. */
  function UpdateRow(t: Table, id: int, row: Object, helper: Option<Guard>): (r: Written)
    ensures Text.StartsWith(r.query.text, "UPDATE " + TableName(t) + " SET ")
    ensures |r.query.params| >= 2 && r.query.params[|r.query.params| - 2] == Num(id)
    ensures r.query.text == "UPDATE " + TableName(t) + " SET " + Text.Join(Suffixed(Keys(r.row), " = ?"), ", ")
                            + " WHERE id = ?" + (if helper.Some? then " AND " + helper.value.key + " = ?" else "")
    ensures "id" !in Keys(r.row)
  {
    Update(TableName(t), id, row, helper)
  }

  /** The per-table `insert…Row` family. */
  function InsertRow(t: Table, row: Object): (r: Written)
    ensures Text.StartsWith(r.query.text, "INSERT INTO " + TableName(t) + " ")
    ensures r.query.text == "INSERT INTO " + TableName(t) + " (" + Text.Join(Keys(r.row), ", ") + ") VALUES ("
                            + Text.Join(Marks(|r.row|), ", ") + ")"
    ensures "id" !in Keys(r.row)
  {
    Insert(TableName(t), row)
  }
}

=== FILE: stamp.dfy ===
/**
 * The postage stamp manager (src/stamp.ts): start-up mode, the synchronous
 * stamp getter read by POST requests, and one iteration of the renewal loop.
 *
 * The storage node is an oracle: the batch listing, the answer to the n-th
 * `getPostageBatch` call of an iteration, the id returned by the n-th purchase
 * and the outcome of a top-up. An iteration is a pure function from the stamp
 * held before it and the oracle to the stamp held after it, the ids adopted on
 * the way, the node calls made, and the error that ended it, if any.
 */
module Stamp {
  import opened Wrappers
  import Config

  /** A batch id, carried in its canonical hex form (`BatchId.toHex()`). */
  datatype BatchId = BatchId(hex: string)

  datatype Mode = Disabled | Hardcoded | AutoBuy

  /** `enabled` is read by the proxy; `stamp` is the handle POST requests attach. */
  datatype Manager = Manager(enabled: bool, stamp: Option<BatchId>, mode: Mode)

  /**
   * `start`. `parse` is `new BatchId(text)`, `None` when it throws: the source
   * sets `enabled` before constructing the id and `start` is not awaited, so
   * an unparsable hard-coded stamp leaves the manager enabled without a stamp.
   */
  function Start(cfg: Config.StampConfig, parse: string -> Option<BatchId>): (m: Manager)
    ensures m.enabled <==> m.mode != Disabled
    ensures m.mode == Hardcoded <==> cfg.hardcodedStamp != ""
    ensures m.mode == AutoBuy <==>
      cfg.hardcodedStamp == "" && Config.NumTruthy(cfg.postageAmount) && Config.NumTruthy(cfg.postageDepth)
    ensures m.stamp.Some? ==> m.mode == Hardcoded && m.stamp == parse(cfg.hardcodedStamp)
  {
    if cfg.hardcodedStamp != "" then Manager(true, parse(cfg.hardcodedStamp), Hardcoded)
    else if Config.NumTruthy(cfg.postageAmount) && Config.NumTruthy(cfg.postageDepth) then Manager(true, None, AutoBuy)
    else Manager(false, None, Disabled)
  }

  /**
   * From the environment to the manager's mode: a set, non-empty `POSTAGE_STAMP`
   * selects hard-coded mode; otherwise auto-buy exactly when amount and depth
   * both hold non-zero numbers; every other environment that configures
   * successfully leaves the manager disabled.
   */
  lemma ModeFromEnvironment(env: Config.Env, toNumber: Config.NumberParser, parse: string -> Option<BatchId>)
    requires Config.GetStampConfig(env, toNumber).Success?
    ensures var m := Start(Config.GetStampConfig(env, toNumber).value, parse);
      && (m.mode == Hardcoded <==> Config.Truthy(Config.Var(env, "POSTAGE_STAMP")))
      && (m.mode == AutoBuy <==>
            !Config.Truthy(Config.Var(env, "POSTAGE_STAMP"))
            && Config.NumTruthy(Config.Parsed(env, "POSTAGE_AMOUNT", toNumber))
            && Config.NumTruthy(Config.Parsed(env, "POSTAGE_DEPTH", toNumber)))
      && (m.enabled <==> m.mode != Disabled)
  {
  }

  /** `getPostageStamp`: the hex of the current stamp, or the "No postage stamp" error. */
  function GetPostageStamp(m: Manager): (r: Result<string>)
    ensures r.Success? <==> m.stamp.Some?
    ensures r.Success? ==> r.value == m.stamp.value.hex
    ensures r.Failure? ==> r.error == Config.ErrorNoStamp
  {
    match m.stamp
    case Some(id) => Success(id.hex)
    case None => Failure(Config.ErrorNoStamp)
  }

  /**
   * Right after start-up, a stamp is available exactly when a hard-coded stamp
   * was configured and parses; a disabled or auto-buying manager has none yet.
   */
  lemma StampAfterStart(cfg: Config.StampConfig, parse: string -> Option<BatchId>)
    ensures GetPostageStamp(Start(cfg, parse)).Success?
        <==> cfg.hardcodedStamp != "" && parse(cfg.hardcodedStamp).Some?
    ensures GetPostageStamp(Start(cfg, parse)).Success?
        ==> GetPostageStamp(Start(cfg, parse)).value == parse(cfg.hardcodedStamp).value.hex
    ensures Start(cfg, parse).mode != Hardcoded
        ==> GetPostageStamp(Start(cfg, parse)) == Failure(Config.ErrorNoStamp)
  {
  }

  // ---------------------------------------------------------------- renewal

  /** One entry of the node's batch listing. */
  datatype Batch = Batch(batchId: BatchId, usable: bool, depth: real, usage: real)

  /** What `getPostageBatch` reports: usage fraction and remaining seconds. */
  datatype BatchStatus = BatchStatus(usage: real, seconds: real)

  /** The storage node's answers during one iteration. */
  datatype Node = Node(
    list: Result<seq<Batch>>,
    get: (nat, BatchId) -> Result<BatchStatus>,
    buy: nat -> Result<BatchId>,
    topUp: (BatchId, real) -> Result<()>)

  /** The reason passed to `buyStamp`, which tells the three purchase sites apart. */
  datatype Reason = NoValidStamps | UsedUp | AboutToExpire

  datatype Call =
    | ListBatches
    | GetBatch(id: BatchId)
    | Buy(amount: real, depth: real, reason: Reason)
    | TopUp(id: BatchId, amount: real)

  /** The outcome of one `manageStamps` run. */
  datatype Iteration = Iteration(stamp: Option<BatchId>, adopted: seq<BatchId>, calls: seq<Call>, error: Option<string>)

  /** The stamps the listing offers: usable, of the configured depth, below the usage threshold. */
  function Candidates(all: seq<Batch>, depth: real, threshold: real): (r: seq<Batch>)
    ensures forall b :: b in r <==> b in all && b.usable && b.depth == depth && b.usage < threshold
    ensures |r| <= |all|
  {
    if |all| == 0 then []
    else
      var rest := Candidates(all[1..], depth, threshold);
      var b := all[0];
      if b.usable && b.depth == depth && b.usage < threshold then [b] + rest else rest
  }

  /** Headroom of a batch: the `1 - usage` that `Arrays.maxBy` maximises. */
  function Headroom(b: Batch): real {
    1.0 - b.usage
  }

  /** A candidate with the most headroom. Which one wins a tie is not part of the model. */
  function MaxHeadroom(cands: seq<Batch>): (r: Batch)
    requires |cands| > 0
    ensures r in cands
    ensures forall b :: b in cands ==> Headroom(b) <= Headroom(r)
  {
    if |cands| == 1 then cands[0]
    else
      var best := MaxHeadroom(cands[1..]);
      assert forall b :: b in cands ==> b == cands[0] || b in cands[1..];
      if Headroom(cands[0]) >= Headroom(best) then cands[0] else best
  }

  /** The iteration in progress: the state the source keeps in `this.stamp` and locals. */
  datatype Run = Run(
    stamp: Option<BatchId>,
    adopted: seq<BatchId>,
    calls: seq<Call>,
    buys: nat,
    gets: nat,
    error: Option<string>,
    current: Option<BatchStatus>)

  /** `this.stamp = await this.buyStamp(amount, depth, why)`: a failure leaves the stamp alone. */
  function BuyStep(r: Run, node: Node, amount: real, depth: real, why: Reason): (r': Run)
    requires r.error.None?
    ensures r'.calls == r.calls + [Buy(amount, depth, why)]
    ensures r'.buys == r.buys + 1 && r'.gets == r.gets
    ensures r'.error.None? <==> node.buy(r.buys).Success?
    ensures r'.error.None? ==> r'.stamp == Some(node.buy(r.buys).value) && r'.adopted == r.adopted + [node.buy(r.buys).value]
    ensures r'.error.Some? ==> r'.stamp == r.stamp && r'.adopted == r.adopted
  {
    var calls := r.calls + [Buy(amount, depth, why)];
    match node.buy(r.buys)
    case Success(id) => r.(stamp := Some(id), adopted := r.adopted + [id], calls := calls, buys := r.buys + 1)
    case Failure(e) => r.(calls := calls, buys := r.buys + 1, error := Some(e))
  }

  /** `currentStamp = await this.bee.getPostageBatch(this.stamp)`, skipped once a step has failed. */
  function GetStep(r: Run, node: Node): (r': Run)
    requires r.error.None? ==> r.stamp.Some?
    ensures r.error.Some? ==> r' == r
    ensures r.error.None? ==> r'.calls == r.calls + [GetBatch(r.stamp.value)]
    ensures r.calls <= r'.calls
    ensures r'.stamp == r.stamp && r'.adopted == r.adopted && r'.buys == r.buys
    ensures r.error.None? ==> (r'.error.None? <==> node.get(r.gets, r.stamp.value).Success?)
    ensures r'.error.None? ==> r'.current == Some(node.get(r.gets, r.stamp.value).value)
  {
    if r.error.Some? then r
    else
      var calls := r.calls + [GetBatch(r.stamp.value)];
      match node.get(r.gets, r.stamp.value)
      case Success(s) => r.(calls := calls, gets := r.gets + 1, current := Some(s))
      case Failure(e) => r.(calls := calls, gets := r.gets + 1, error := Some(e))
  }

  /** `await this.topup(this.stamp, amount)`: the stamp itself is never replaced. */
  function TopUpStep(r: Run, node: Node, amount: real): (r': Run)
    requires r.error.None? && r.stamp.Some?
    ensures r'.calls == r.calls + [TopUp(r.stamp.value, amount)]
    ensures r'.stamp == r.stamp && r'.adopted == r.adopted && r'.buys == r.buys && r'.gets == r.gets
    ensures r'.error.None? <==> node.topUp(r.stamp.value, amount).Success?
  {
    var calls := r.calls + [TopUp(r.stamp.value, amount)];
    match node.topUp(r.stamp.value, amount)
    case Success(_) => r.(calls := calls)
    case Failure(e) => r.(calls := calls, error := Some(e))
  }

  function CountBuys(calls: seq<Call>): nat {
    if |calls| == 0 then 0 else (if calls[0].Buy? then 1 else 0) + CountBuys(calls[1..])
  }

  function CountTopUps(calls: seq<Call>): nat {
    if |calls| == 0 then 0 else (if calls[0].TopUp? then 1 else 0) + CountTopUps(calls[1..])
  }

  lemma {:induction false} CountsAppend(calls: seq<Call>, c: Call)
    ensures CountBuys(calls + [c]) == CountBuys(calls) + (if c.Buy? then 1 else 0)
    ensures CountTopUps(calls + [c]) == CountTopUps(calls) + (if c.TopUp? then 1 else 0)
    decreases |calls|
  {
    if |calls| > 0 {
      assert (calls + [c])[1..] == calls[1..] + [c];
      CountsAppend(calls[1..], c);
    }
  }

  /** The id bought by the `k`-th purchase of this iteration, for some `k` below three. */
  predicate Purchased(node: Node, id: BatchId) {
    exists k :: 0 <= k < 3 && node.buy(k) == Success(id)
  }

  function CandidateIds(cands: seq<Batch>): set<BatchId> {
    set b | b in cands :: b.batchId
  }

  /** Last adopted id, or the stamp held before the iteration. */
  function Held(prev: Option<BatchId>, adopted: seq<BatchId>): Option<BatchId> {
    if |adopted| == 0 then prev else Some(adopted[|adopted| - 1])
  }

  /** An adopted id came from the listing (first adoption only) or from a purchase. */
  predicate Origins(adopted: seq<BatchId>, node: Node, cands: seq<Batch>) {
    forall i :: 0 <= i < |adopted| ==> (i == 0 && adopted[i] in CandidateIds(cands)) || Purchased(node, adopted[i])
  }

  /** The bookkeeping every state of a run keeps. */
  predicate Tracked(r: Run, prev: Option<BatchId>, node: Node, cands: seq<Batch>) {
    && r.stamp == Held(prev, r.adopted)
    && r.buys == CountBuys(r.calls)
    && Origins(r.adopted, node, cands)
    && |r.calls| >= 1 && r.calls[0] == ListBatches
  }

  /** Tracked, and a stamp has been adopted unless a step failed. */
  predicate Sound(r: Run, prev: Option<BatchId>, node: Node, cands: seq<Batch>) {
    Tracked(r, prev, node, cands) && (r.error.None? ==> |r.adopted| >= 1)
  }

  lemma BuyKeepsSound(r: Run, prev: Option<BatchId>, node: Node, cands: seq<Batch>, amount: real, depth: real, why: Reason)
    requires Tracked(r, prev, node, cands) && r.error.None? && r.buys < 3
    ensures Sound(BuyStep(r, node, amount, depth, why), prev, node, cands)
    ensures CountTopUps(BuyStep(r, node, amount, depth, why).calls) == CountTopUps(r.calls)
  {
    var r' := BuyStep(r, node, amount, depth, why);
    CountsAppend(r.calls, Buy(amount, depth, why));
    if r'.error.None? {
      var id := node.buy(r.buys).value;
      assert Purchased(node, id);
      assert forall i :: 0 <= i < |r.adopted| ==> r'.adopted[i] == r.adopted[i];
    }
  }

  lemma GetKeepsSound(r: Run, prev: Option<BatchId>, node: Node, cands: seq<Batch>)
    requires Sound(r, prev, node, cands)
    ensures Sound(GetStep(r, node), prev, node, cands)
    ensures CountTopUps(GetStep(r, node).calls) == CountTopUps(r.calls)
  {
    if r.error.None? {
      CountsAppend(r.calls, GetBatch(r.stamp.value));
    }
  }

  lemma TopUpKeepsSound(r: Run, prev: Option<BatchId>, node: Node, cands: seq<Batch>, amount: real)
    requires Sound(r, prev, node, cands) && r.error.None?
    ensures Sound(TopUpStep(r, node, amount), prev, node, cands)
    ensures CountTopUps(TopUpStep(r, node, amount).calls) == CountTopUps(r.calls) + 1
  {
    CountsAppend(r.calls, TopUp(r.stamp.value, amount));
  }

  /** Lines 121-126: buy when nothing is usable, otherwise adopt the candidate with most headroom. */
  function ChooseStep(r: Run, node: Node, cands: seq<Batch>, amount: real, depth: real): (r': Run)
    requires r == Run(r.stamp, [], [ListBatches], 0, 0, None, None)
    ensures Sound(r', r.stamp, node, cands)
    ensures CountTopUps(r'.calls) == CountTopUps(r.calls) && r'.buys <= 1
    ensures |cands| > 0 ==> r'.adopted == [MaxHeadroom(cands).batchId] && r'.calls == r.calls && r'.error.None?
    ensures |cands| == 0 ==> r' == BuyStep(r, node, amount, depth, NoValidStamps)
    ensures forall c :: c in r'.calls && c !in r.calls ==> c == Buy(amount, depth, NoValidStamps)
  {
    assert CountBuys(r.calls) == 0 && CountTopUps(r.calls) == 0;
    if |cands| == 0 then
      BuyKeepsSound(r, r.stamp, node, cands, amount, depth, NoValidStamps);
      BuyStep(r, node, amount, depth, NoValidStamps)
    else
      var best := MaxHeadroom(cands).batchId;
      var r' := r.(stamp := Some(best), adopted := [best]);
      assert best in CandidateIds(cands);
      assert Origins(r'.adopted, node, cands);
      r'
  }

  /** Lines 128-133: replace a stamp whose re-fetched usage reached the threshold. */
  function UsageStep(r: Run, prev: Option<BatchId>, node: Node, cands: seq<Batch>, amount: real, depth: real, threshold: real): (r': Run)
    requires Sound(r, prev, node, cands) && r.buys <= 1
    requires r.error.None? ==> r.current.Some?
    ensures Sound(r', prev, node, cands)
    ensures CountTopUps(r'.calls) == CountTopUps(r.calls) && r'.buys <= r.buys + 1
    ensures r'.error.None? ==> r'.current.Some?
    ensures r.calls <= r'.calls && r.adopted <= r'.adopted
    ensures r.error.Some? || r.current.value.usage < threshold ==> r' == r
    ensures r.error.None? && r.current.value.usage >= threshold ==>
      |r'.calls| > |r.calls| && r'.calls[..|r.calls| + 1] == r.calls + [Buy(amount, depth, UsedUp)]
    ensures forall c :: c in r'.calls && c !in r.calls ==> c.GetBatch? || c == Buy(amount, depth, UsedUp)
  {
    if r.error.Some? || r.current.value.usage < threshold then r
    else
      var b := BuyStep(r, node, amount, depth, UsedUp);
      BuyKeepsSound(r, prev, node, cands, amount, depth, UsedUp);
      GetKeepsSound(b, prev, node, cands);
      var r' := GetStep(b, node);
      assert r'.calls[..|r.calls| + 1] == b.calls;
      r'
  }

  /** Lines 137-138: the keep-alive top-up, then the re-fetch of the same stamp. */
  function TopUpThenGet(r: Run, prev: Option<BatchId>, node: Node, cands: seq<Batch>, amount: real): (r': Run)
    requires Sound(r, prev, node, cands) && r.error.None?
    ensures Sound(r', prev, node, cands)
    ensures r'.buys == r.buys && r'.stamp == r.stamp
    ensures r.calls <= r'.calls && r.adopted <= r'.adopted
    ensures CountTopUps(r'.calls) == CountTopUps(r.calls) + 1
    ensures r'.calls == r.calls + [TopUp(r.stamp.value, amount)]
         || r'.calls == r.calls + [TopUp(r.stamp.value, amount), GetBatch(r.stamp.value)]
  {
    var mid := TopUpStep(r, node, amount);
    TopUpKeepsSound(r, prev, node, cands, amount);
    GetKeepsSound(mid, prev, node, cands);
    GetStep(mid, node)
  }

  /** Lines 140-141: the replacement purchase, then the re-fetch of the stamp held after it. */
  function BuyThenGet(r: Run, prev: Option<BatchId>, node: Node, cands: seq<Batch>, amount: real, depth: real): (r': Run)
    requires Sound(r, prev, node, cands) && r.buys <= 2 && r.error.None?
    ensures Sound(r', prev, node, cands)
    ensures r'.buys == r.buys + 1
    ensures r.calls <= r'.calls && r.adopted <= r'.adopted
    ensures CountTopUps(r'.calls) == CountTopUps(r.calls)
    ensures |r'.calls| > |r.calls| && r'.calls[|r.calls|] == Buy(amount, depth, AboutToExpire)
  {
    var mid := BuyStep(r, node, amount, depth, AboutToExpire);
    BuyKeepsSound(r, prev, node, cands, amount, depth, AboutToExpire);
    GetKeepsSound(mid, prev, node, cands);
    GetStep(mid, node)
  }

  /** Lines 135-143: top up (keep-alive) or replace a stamp close to expiry. */
  function ExpiryStep(r: Run, prev: Option<BatchId>, node: Node, cands: seq<Batch>, amount: real, depth: real,
                      thresholdSeconds: real, keepAlive: bool): (r': Run)
    requires Sound(r, prev, node, cands) && r.buys <= 2
    requires r.error.None? ==> r.current.Some?
    ensures Sound(r', prev, node, cands)
    ensures r'.buys <= r.buys + 1
    ensures r.calls <= r'.calls && r.adopted <= r'.adopted
    ensures CountTopUps(r'.calls) <= CountTopUps(r.calls) + 1
    ensures CountTopUps(r'.calls) == CountTopUps(r.calls) + 1 ==> forall c :: c in r'.calls && c !in r.calls ==> !c.Buy?
    ensures r.error.Some? || r.current.value.seconds >= thresholdSeconds ==> r' == r
    ensures r.error.None? && r.current.value.seconds < thresholdSeconds ==>
      |r'.calls| > |r.calls| && r'.calls[|r.calls|] == (if keepAlive then TopUp(r.stamp.value, amount) else Buy(amount, depth, AboutToExpire))
    ensures r.error.None? && keepAlive ==> r'.stamp == r.stamp
  {
    if r.error.Some? || r.current.value.seconds >= thresholdSeconds then r
    else if keepAlive then
      var r' := TopUpThenGet(r, prev, node, cands, amount);
      assert forall c :: c in r'.calls && c !in r.calls ==> c == TopUp(r.stamp.value, amount) || c == GetBatch(r.stamp.value);
      r'
    else BuyThenGet(r, prev, node, cands, amount, depth)
  }

  /** No purchase made so far was the expiry replacement. */
  predicate NoExpiryBuy(calls: seq<Call>) {
    forall c :: c in calls ==> c.Buy? ==> c.reason != AboutToExpire
  }

  /** Lines 121-133: choose or buy a stamp, re-fetch it, and replace it when used up. */
  function Prepare(cfg: Config.StampConfig, prev: Option<BatchId>, node: Node, cands: seq<Batch>, amount: real, depth: real): (r: Run)
    ensures Sound(r, prev, node, cands)
    ensures r.buys <= 2 && (r.error.None? ==> r.current.Some?)
    ensures CountTopUps(r.calls) == 0 && NoExpiryBuy(r.calls)
    ensures var first := ChooseStep(Run(prev, [], [ListBatches], 0, 0, None, None), node, cands, amount, depth);
      first.calls <= r.calls && first.adopted <= r.adopted && (first.error.Some? ==> r == first)
  {
    var r0 := Run(prev, [], [ListBatches], 0, 0, None, None);
    var r1 := ChooseStep(r0, node, cands, amount, depth);
    GetKeepsSound(r1, prev, node, cands);
    var r2 := GetStep(r1, node);
    assert NoExpiryBuy(r2.calls);
    UsageStep(r2, prev, node, cands, amount, depth, cfg.postageThresholdUsage)
  }

  /** Lines 121-143 once the listing has arrived: the steps in order, each skipped after a failure. */
  function Renew(cfg: Config.StampConfig, prev: Option<BatchId>, node: Node, cands: seq<Batch>, amount: real, depth: real): (r: Run)
    ensures Sound(r, prev, node, cands)
    ensures r.buys <= 3 && CountTopUps(r.calls) <= 1
    ensures CountTopUps(r.calls) == 1 ==> NoExpiryBuy(r.calls)
    ensures var first := ChooseStep(Run(prev, [], [ListBatches], 0, 0, None, None), node, cands, amount, depth);
      first.calls <= r.calls && first.adopted <= r.adopted && (first.error.Some? ==> r == first)
  {
    var r3 := Prepare(cfg, prev, node, cands, amount, depth);
    ExpiryStep(r3, prev, node, cands, amount, depth, cfg.postageThresholdSeconds, cfg.postageKeepAlive)
  }

  /**
   * One run of `manageStamps`. The amount and depth go through `Types.asNumber`,
   * which throws when they are not set; the loop only runs when both are.
   */
  function ManageStamps(cfg: Config.StampConfig, prev: Option<BatchId>, node: Node): (it: Iteration)
    ensures it.error.None? ==> it.stamp.Some? && |it.adopted| >= 1
    ensures it.stamp == Held(prev, it.adopted)
    ensures CountBuys(it.calls) <= 3 && CountTopUps(it.calls) <= 1
    ensures CountTopUps(it.calls) == 1 ==> NoExpiryBuy(it.calls)
    ensures node.list.Success? && cfg.postageDepth.Some? ==>
      Origins(it.adopted, node, Candidates(node.list.value, cfg.postageDepth.value, cfg.postageThresholdUsage))
    ensures node.list.Failure? ==> it.adopted == []
    ensures cfg.postageAmount.Some? && cfg.postageDepth.Some? ==> |it.calls| >= 1 && it.calls[0] == ListBatches
  {
    if cfg.postageAmount.None? || cfg.postageDepth.None? then Iteration(prev, [], [], Some(Config.ErrorNotANumber))
    else
      match node.list
      case Failure(e) => Iteration(prev, [], [ListBatches], Some(e))
      case Success(all) =>
        var depth := cfg.postageDepth.value;
        var r := Renew(cfg, prev, node, Candidates(all, depth, cfg.postageThresholdUsage), cfg.postageAmount.value, depth);
        Iteration(r.stamp, r.adopted, r.calls, r.error)
  }

  // ------------------------------------------------------ iteration scenarios

  /** The configuration under which the renewal loop runs: amount and depth are set. */
  predicate Armed(cfg: Config.StampConfig) {
    cfg.postageAmount.Some? && cfg.postageDepth.Some?
  }

  /** The candidates an iteration sees in a successful listing. */
  function Offered(cfg: Config.StampConfig, node: Node): seq<Batch>
    requires Armed(cfg) && node.list.Success?
  {
    Candidates(node.list.value, cfg.postageDepth.value, cfg.postageThresholdUsage)
  }

  /** The run after the listing, the adoption of the best candidate and its re-fetch. */
  function Refetched(cfg: Config.StampConfig, prev: Option<BatchId>, node: Node): (r: Run)
    requires Armed(cfg) && node.list.Success? && |Offered(cfg, node)| > 0
    ensures var best := MaxHeadroom(Offered(cfg, node)).batchId;
      && r.calls == [ListBatches, GetBatch(best)] && r.adopted == [best] && r.stamp == Some(best) && r.buys == 0 && r.gets == 1
      && (r.error.None? <==> node.get(0, best).Success?)
      && (r.error.None? ==> r.current == Some(node.get(0, best).value))
      && Sound(r, prev, node, Offered(cfg, node))
      && r == GetStep(ChooseStep(Run(prev, [], [ListBatches], 0, 0, None, None), node, Offered(cfg, node),
                                 cfg.postageAmount.value, cfg.postageDepth.value), node)
  {
    var r1 := ChooseStep(Run(prev, [], [ListBatches], 0, 0, None, None), node, Offered(cfg, node),
                         cfg.postageAmount.value, cfg.postageDepth.value);
    GetKeepsSound(r1, prev, node, Offered(cfg, node));
    GetStep(r1, node)
  }

  /** With nothing usable listed, the first purchase comes right after the listing and its id is adopted. */
  lemma NothingUsableBuys(cfg: Config.StampConfig, prev: Option<BatchId>, node: Node)
    requires Armed(cfg) && node.list.Success? && |Offered(cfg, node)| == 0
    ensures var it := ManageStamps(cfg, prev, node);
      |it.calls| >= 2 && it.calls[1] == Buy(cfg.postageAmount.value, cfg.postageDepth.value, NoValidStamps)
      && (node.buy(0).Success? ==> it.adopted[0] == node.buy(0).value)
      && (node.buy(0).Failure? ==> it.stamp == prev && it.adopted == [] && |it.calls| == 2 && it.error.Some?)
  {
    var amount, depth := cfg.postageAmount.value, cfg.postageDepth.value;
    var r0 := Run(prev, [], [ListBatches], 0, 0, None, None);
    var first := ChooseStep(r0, node, Offered(cfg, node), amount, depth);
    assert first.calls == [ListBatches, Buy(amount, depth, NoValidStamps)];
    assert ManageStamps(cfg, prev, node).calls == Renew(cfg, prev, node, Offered(cfg, node), amount, depth).calls;
  }

  /** With candidates listed, the first adoption is one with the lowest usage, and no purchase precedes it. */
  lemma LeastUsedAdopted(cfg: Config.StampConfig, prev: Option<BatchId>, node: Node)
    requires Armed(cfg) && node.list.Success? && |Offered(cfg, node)| > 0
    ensures var it := ManageStamps(cfg, prev, node);
      |it.adopted| >= 1 && |it.calls| >= 2 && it.calls[1] == GetBatch(it.adopted[0])
      && exists b :: b in Offered(cfg, node) && b.batchId == it.adopted[0]
           && forall c :: c in Offered(cfg, node) ==> b.usage <= c.usage
  {
    var amount, depth, cands := cfg.postageAmount.value, cfg.postageDepth.value, Offered(cfg, node);
    var best := MaxHeadroom(cands);
    var second := Refetched(cfg, prev, node);
    var r := Renew(cfg, prev, node, cands, amount, depth);
    assert second.calls <= r.calls && second.adopted <= r.adopted;
    assert forall c :: c in cands ==> Headroom(c) <= Headroom(best);
  }

  /** A candidate whose re-fetch shows room and time left is kept: no purchase, no top-up. */
  lemma HealthyCandidateKept(cfg: Config.StampConfig, prev: Option<BatchId>, node: Node)
    requires Armed(cfg) && node.list.Success? && |Offered(cfg, node)| > 0
    requires var best := MaxHeadroom(Offered(cfg, node)).batchId;
      node.get(0, best).Success?
      && node.get(0, best).value.usage < cfg.postageThresholdUsage
      && node.get(0, best).value.seconds >= cfg.postageThresholdSeconds
    ensures var best := MaxHeadroom(Offered(cfg, node)).batchId;
      ManageStamps(cfg, prev, node) == Iteration(Some(best), [best], [ListBatches, GetBatch(best)], None)
  {
    var amount, depth, cands := cfg.postageAmount.value, cfg.postageDepth.value, Offered(cfg, node);
    var r2 := Refetched(cfg, prev, node);
    assert Prepare(cfg, prev, node, cands, amount, depth) == r2;
    assert ExpiryStep(r2, prev, node, cands, amount, depth, cfg.postageThresholdSeconds, cfg.postageKeepAlive) == r2;
  }

  /** A stamp found used up on re-fetch is replaced by exactly one purchase, whose id is adopted. */
  lemma UsedUpReplacedOnce(cfg: Config.StampConfig, prev: Option<BatchId>, node: Node)
    requires Armed(cfg) && node.list.Success? && |Offered(cfg, node)| > 0
    requires var best := MaxHeadroom(Offered(cfg, node)).batchId;
      node.get(0, best).Success? && node.get(0, best).value.usage >= cfg.postageThresholdUsage
    requires node.buy(0).Success?
    requires node.get(1, node.buy(0).value).Success?
    requires node.get(1, node.buy(0).value).value.seconds >= cfg.postageThresholdSeconds
    ensures var best, id := MaxHeadroom(Offered(cfg, node)).batchId, node.buy(0).value;
      ManageStamps(cfg, prev, node) == Iteration(Some(id), [best, id],
        [ListBatches, GetBatch(best), Buy(cfg.postageAmount.value, cfg.postageDepth.value, UsedUp), GetBatch(id)], None)
  {
    var amount, depth, cands := cfg.postageAmount.value, cfg.postageDepth.value, Offered(cfg, node);
    var r2 := Refetched(cfg, prev, node);
    var b := BuyStep(r2, node, amount, depth, UsedUp);
    var r3 := GetStep(b, node);
    assert UsageStep(r2, prev, node, cands, amount, depth, cfg.postageThresholdUsage) == r3;
    assert Prepare(cfg, prev, node, cands, amount, depth) == r3;
    assert ExpiryStep(r3, prev, node, cands, amount, depth, cfg.postageThresholdSeconds, cfg.postageKeepAlive) == r3;
  }

  /** With keep-alive, a stamp close to expiry is topped up by the configured amount and stays the stamp. */
  lemma ExpiringToppedUp(cfg: Config.StampConfig, prev: Option<BatchId>, node: Node)
    requires Armed(cfg) && node.list.Success? && |Offered(cfg, node)| > 0 && cfg.postageKeepAlive
    requires var best := MaxHeadroom(Offered(cfg, node)).batchId;
      node.get(0, best).Success?
      && node.get(0, best).value.usage < cfg.postageThresholdUsage
      && node.get(0, best).value.seconds < cfg.postageThresholdSeconds
    ensures var best, it := MaxHeadroom(Offered(cfg, node)).batchId, ManageStamps(cfg, prev, node);
      |it.calls| >= 3 && it.calls[2] == TopUp(best, cfg.postageAmount.value)
      && it.stamp == Some(best) && it.adopted == [best] && CountBuys(it.calls) == 0
  {
    var amount, depth, cands := cfg.postageAmount.value, cfg.postageDepth.value, Offered(cfg, node);
    var best := MaxHeadroom(cands).batchId;
    var r2 := Refetched(cfg, prev, node);
    var r3 := Prepare(cfg, prev, node, cands, amount, depth);
    assert r3 == r2;
    var r4 := GetStep(TopUpStep(r3, node, amount), node);
    assert ManageStamps(cfg, prev, node).calls == r4.calls;
    var calls := [ListBatches, GetBatch(best), TopUp(best, amount)];
    assert r4.calls == calls || r4.calls == calls + [GetBatch(best)];
    CountsAppend([ListBatches], GetBatch(best));
    CountsAppend([ListBatches, GetBatch(best)], TopUp(best, amount));
    CountsAppend(calls, GetBatch(best));
  }

  /** Without keep-alive, a stamp close to expiry is replaced by a purchase instead of a top-up. */
  lemma ExpiringReplaced(cfg: Config.StampConfig, prev: Option<BatchId>, node: Node)
    requires Armed(cfg) && node.list.Success? && |Offered(cfg, node)| > 0 && !cfg.postageKeepAlive
    requires var best := MaxHeadroom(Offered(cfg, node)).batchId;
      node.get(0, best).Success?
      && node.get(0, best).value.usage < cfg.postageThresholdUsage
      && node.get(0, best).value.seconds < cfg.postageThresholdSeconds
    ensures var it := ManageStamps(cfg, prev, node);
      |it.calls| >= 3 && it.calls[2] == Buy(cfg.postageAmount.value, cfg.postageDepth.value, AboutToExpire)
      && CountTopUps(it.calls) == 0
      && (node.buy(0).Success? ==> it.stamp == Some(node.buy(0).value))
  {
    var amount, depth, cands := cfg.postageAmount.value, cfg.postageDepth.value, Offered(cfg, node);
    var best := MaxHeadroom(cands).batchId;
    var r2 := Refetched(cfg, prev, node);
    var r3 := Prepare(cfg, prev, node, cands, amount, depth);
    assert r3 == r2;
    var b := BuyStep(r3, node, amount, depth, AboutToExpire);
    var r4 := GetStep(b, node);
    assert ManageStamps(cfg, prev, node).calls == r4.calls && ManageStamps(cfg, prev, node).stamp == r4.stamp;
    var calls := [ListBatches, GetBatch(best), Buy(amount, depth, AboutToExpire)];
    assert b.calls == calls;
    CountsAppend([ListBatches], GetBatch(best));
    CountsAppend([ListBatches, GetBatch(best)], calls[2]);
    if node.buy(0).Success? {
      CountsAppend(calls, GetBatch(node.buy(0).value));
    }
  }

  /**
   * A failure after the first adoption ends the iteration but does not undo
   * the adoption: the stamp requests read is the candidate chosen at line 125.
   */
  lemma FailedRefetchKeepsChoice(cfg: Config.StampConfig, prev: Option<BatchId>, node: Node, m: Manager)
    requires Armed(cfg) && node.list.Success? && |Offered(cfg, node)| > 0
    requires node.get(0, MaxHeadroom(Offered(cfg, node)).batchId).Failure?
    ensures var best, it := MaxHeadroom(Offered(cfg, node)).batchId, ManageStamps(cfg, prev, node);
      it.error.Some? && it.stamp == Some(best)
      && GetPostageStamp(m.(stamp := it.stamp)) == Success(best.hex)
  {
    var amount, depth, cands := cfg.postageAmount.value, cfg.postageDepth.value, Offered(cfg, node);
    var r2 := Refetched(cfg, prev, node);
    assert Prepare(cfg, prev, node, cands, amount, depth) == r2;
  }
}

=== FILE: text.dfy ===
/**
 * String helpers the gateway relies on: substring search, ASCII lower-casing,
 * prefixes, joining and splitting on a separator, counting a character and
 * rendering integers in decimal.
 */
module Text {

  /** `s` holds `sub` starting at index `i`. */
  predicate OccursAt(s: string, sub: string, i: int) {
    0 <= i && i + |sub| <= |s| && s[i..i + |sub|] == sub
  }

  /** JavaScript's `s.includes(sub)`. */
  predicate Contains(s: string, sub: string) {
    exists i :: 0 <= i <= |s| - |sub| && OccursAt(s, sub, i)
  }

  /** JavaScript's `s.startsWith(p)`. */
  predicate StartsWith(s: string, p: string) {
    p <= s
  }

  /** A substring of a prefix is a substring of the whole. */
  lemma ContainsInPrefix(s: string, n: nat, sub: string)
    requires Contains(Take(s, n), sub)
    ensures Contains(s, sub)
  {
    var i :| 0 <= i <= |Take(s, n)| - |sub| && OccursAt(Take(s, n), sub, i);
    assert s[i..i + |sub|] == Take(s, n)[i..i + |sub|];
    assert OccursAt(s, sub, i);
  }

  /** Lower-casing of one character, on the ASCII range. */
  function LowerChar(c: char): char {
    if 'A' <= c <= 'Z' then (c as int + 32) as char else c
  }

  /** `s.toLowerCase()`, on the ASCII range. */
  function Lower(s: string): (r: string)
    ensures |r| == |s|
    ensures forall i :: 0 <= i < |s| ==> r[i] == LowerChar(s[i])
  {
    seq(|s|, i requires 0 <= i < |s| => LowerChar(s[i]))
  }

  /** The first `n` characters of `s`, or all of `s` when it is shorter (`slice(0, n)`). */
  function Take(s: string, n: nat): (r: string)
    ensures |r| <= n && r <= s
    ensures |s| >= n ==> |r| == n
  {
    if n <= |s| then s[..n] else s
  }

  /** `s` repeated `n` times when `s` is one character: `c.repeat(n)`. */
  function Repeat(c: char, n: nat): (r: string)
    ensures |r| == n
    ensures forall i :: 0 <= i < n ==> r[i] == c
  {
    seq(n, _ => c)
  }

  /** `parts.join(sep)`. */
  function Join(parts: seq<string>, sep: string): string
  {
    if |parts| == 0 then ""
    else if |parts| == 1 then parts[0]
    else parts[0] + sep + Join(parts[1..], sep)
  }

  /** Number of occurrences of the character `c` in `s`. */
  function Count(s: string, c: char): nat
  {
    if |s| == 0 then 0
    else (if s[0] == c then 1 else 0) + Count(s[1..], c)
  }

  lemma {:induction false} CountConcat(a: string, b: string, c: char)
    ensures Count(a + b, c) == Count(a, c) + Count(b, c)
    decreases |a|
  {
    if |a| == 0 {
      assert a + b == b;
    } else {
      assert (a + b)[1..] == a[1..] + b;
      CountConcat(a[1..], b, c);
    }
  }

  /** A string without `c` counts none. */
  lemma {:induction false} CountAbsent(s: string, c: char)
    requires c !in s
    ensures Count(s, c) == 0
    decreases |s|
  {
    if |s| > 0 {
      assert c !in s[1..];
      CountAbsent(s[1..], c);
    }
  }

  /**
   * Joining parts that each hold `k` copies of `c` with a separator that holds
   * none gives exactly `k` copies per part.
   */
  lemma {:induction false} CountJoinUniform(parts: seq<string>, sep: string, c: char, k: nat)
    requires forall i :: 0 <= i < |parts| ==> Count(parts[i], c) == k
    requires Count(sep, c) == 0
    ensures Count(Join(parts, sep), c) == k * |parts|
    decreases |parts|
  {
    if |parts| == 0 {
    } else if |parts| == 1 {
    } else {
      var rest := parts[1..];
      assert forall i :: 0 <= i < |rest| ==> rest[i] == parts[i + 1];
      CountJoinUniform(rest, sep, c, k);
      assert Join(parts, sep) == parts[0] + sep + Join(rest, sep);
      CountConcat(parts[0], sep, c);
      CountConcat(parts[0] + sep, Join(rest, sep), c);
      MulSucc(k, |rest|);
    }
  }

  lemma MulSucc(k: nat, n: nat)
    ensures k * (n + 1) == k * n + k
  {
  }

  /** `s.split(c)` for a one-character separator: always at least one part. */
  function Split(s: string, c: char): (r: seq<string>)
    ensures |r| >= 1
    decreases |s|
  {
    if |s| == 0 then [""]
    else
      var rest := Split(s[1..], c);
      if s[0] == c then [""] + rest
      else [[s[0]] + rest[0]] + rest[1..]
  }

  /** Splitting yields one more part than there are separators. */
  lemma {:induction false} SplitLength(s: string, c: char)
    ensures |Split(s, c)| == Count(s, c) + 1
    decreases |s|
  {
    if |s| > 0 {
      SplitLength(s[1..], c);
    }
  }

  /** No part of a split holds the separator. */
  lemma {:induction false} SplitPartsFree(s: string, c: char)
    ensures forall i :: 0 <= i < |Split(s, c)| ==> c !in Split(s, c)[i]
    decreases |s|
  {
    if |s| > 0 {
      SplitPartsFree(s[1..], c);
      var rest := Split(s[1..], c);
      if s[0] != c {
        assert c !in rest[0];
        assert c !in [s[0]] + rest[0];
      }
    }
  }

  /** Joining the parts of a split with the separator rebuilds the string. */
  lemma {:induction false} SplitJoin(s: string, c: char)
    ensures Join(Split(s, c), [c]) == s
    decreases |s|
  {
    if |s| > 0 {
      SplitJoin(s[1..], c);
      var rest := Split(s[1..], c);
      if s[0] == c {
        assert Split(s, c) == [""] + rest;
        assert (["" ] + rest)[1..] == rest;
        assert Join(Split(s, c), [c]) == "" + [c] + Join(rest, [c]);
        assert s == [s[0]] + s[1..];
      } else {
        var parts := Split(s, c);
        assert parts == [[s[0]] + rest[0]] + rest[1..];
        if |rest| == 1 {
          assert parts == [[s[0]] + rest[0]];
          assert Join(rest, [c]) == rest[0];
        } else {
          assert parts[1..] == rest[1..];
          assert Join(rest, [c]) == rest[0] + [c] + Join(rest[1..], [c]);
          assert Join(parts, [c]) == [s[0]] + rest[0] + [c] + Join(rest[1..], [c]);
        }
        assert s == [s[0]] + s[1..];
      }
    }
  }

  /** Joining a leading part onto at least one more puts the separator between them. */
  lemma JoinCons(head: string, rest: seq<string>, sep: string)
    requires |rest| >= 1
    ensures Join([head] + rest, sep) == head + sep + Join(rest, sep)
  {
    assert ([head] + rest)[1..] == rest;
  }

  /** A run free of the separator before the rest of a string extends the split's first part. */
  lemma {:induction false} SplitAfterFree(a: string, s: string, c: char)
    requires c !in a
    ensures Split(a + s, c) == [a + Split(s, c)[0]] + Split(s, c)[1..]
    decreases |a|
  {
    if |a| > 0 {
      assert (a + s)[1..] == a[1..] + s;
      SplitAfterFree(a[1..], s, c);
      assert a + Split(s, c)[0] == [a[0]] + (a[1..] + Split(s, c)[0]);
    } else {
      var r := Split(s, c);
      assert a + s == s && a + r[0] == r[0];
      assert r == [r[0]] + r[1..];
    }
  }

  /** Splitting the join of separator-free parts gives the parts back. */
  lemma {:induction false} JoinSplit(parts: seq<string>, c: char)
    requires |parts| >= 1
    requires forall i :: 0 <= i < |parts| ==> c !in parts[i]
    ensures Split(Join(parts, [c]), c) == parts
    decreases |parts|
  {
    if |parts| == 1 {
      SplitAfterFree(parts[0], "", c);
      assert parts[0] + "" == parts[0];
    } else {
      var rest := parts[1..];
      JoinSplit(rest, c);
      var tail := [c] + Join(rest, [c]);
      assert Join(parts, [c]) == parts[0] + tail by {
        JoinCons(parts[0], rest, [c]);
        assert parts == [parts[0]] + rest;
      }
      assert Split(tail, c) == [""] + rest by {
        assert tail[1..] == Join(rest, [c]);
      }
      SplitAfterFree(parts[0], tail, c);
      assert parts[0] + "" == parts[0];
      assert parts == [parts[0]] + rest;
    }
  }

  /** A string that counts no `c` does not hold `c`. */
  lemma {:induction false} CountZero(s: string, c: char)
    requires Count(s, c) == 0
    ensures c !in s
    decreases |s|
  {
    if |s| > 0 {
      CountZero(s[1..], c);
      assert s == [s[0]] + s[1..];
    }
  }

  /** Decimal digit character for `d`. */
  function DigitChar(d: nat): (c: char)
    requires d < 10
    ensures '0' <= c <= '9'
  {
    ('0' as int + d) as char
  }

  predicate IsDigits(s: string) {
    forall i :: 0 <= i < |s| ==> '0' <= s[i] <= '9'
  }

  /** `String(n)` for a natural number: no leading zeros, at least one digit. */
  function NatToString(n: nat): (r: string)
    ensures |r| >= 1 && IsDigits(r)
    decreases n
  {
    if n < 10 then [DigitChar(n)] else NatToString(n / 10) + [DigitChar(n % 10)]
  }

  /** `String(i)` for an integer. */
  function IntToString(i: int): (r: string)
    ensures |r| >= 1
  {
    if i < 0 then "-" + NatToString(-i) else NatToString(i)
  }

  /** Decimal rendering holds no character other than digits and a leading minus. */
  lemma IntToStringHasNo(i: int, c: char)
    requires c != '-' && !('0' <= c <= '9')
    ensures Count(IntToString(i), c) == 0
  {
    var s := IntToString(i);
    if i < 0 {
      CountConcat("-", NatToString(-i), c);
      NoCountOfDigits(NatToString(-i), c);
    } else {
      NoCountOfDigits(s, c);
    }
  }

  lemma {:induction false} NoCountOfDigits(s: string, c: char)
    requires IsDigits(s) && !('0' <= c <= '9')
    ensures Count(s, c) == 0
    decreases |s|
  {
    if |s| > 0 {
      NoCountOfDigits(s[1..], c);
    }
  }
}

=== FILE: ttl_cache.dfy ===
/**
 * Cache-aside memoization with a fixed time-to-live, as used through
 * `Cache.get(key, ttl, producer)` by the access gate and by subdomain
 * resolution. The clock is a parameter (`now`, in milliseconds); the producer
 * is passed as the value it would yield, and a miss records that it was run.
 */
module TtlCache {
  import opened Wrappers

  datatype Entry<T> = Entry(value: T, expiresAt: int)

  /** All entries, by key. */
  type Cache<T> = map<string, Entry<T>>

  /** What one `Cache.get` yields: the value (or the producer's error) and the cache after it. */
  datatype Lookup<T> = Lookup(value: Result<T>, cache: Cache<T>, produced: bool)

  /** `key` holds an entry that has not expired at `now`. */
  predicate Live<T>(c: Cache<T>, key: string, now: int) {
    key in c && now < c[key].expiresAt
  }

  /**
   * A live entry is served without running the producer; otherwise the producer
   * runs, a value it yields is stored for `ttl` milliseconds, and an error it
   * raises propagates with the cache left as it was.
   */
  function Get<T>(c: Cache<T>, key: string, now: int, ttl: nat, produce: Result<T>): (r: Lookup<T>)
    ensures r.produced <==> !Live(c, key, now)
    ensures !r.produced ==> r.value == Success(c[key].value) && r.cache == c
    ensures r.produced ==> r.value == produce
    ensures r.value.Failure? ==> r.cache == c
    ensures forall k :: k != key ==> (k in r.cache <==> k in c)
    ensures forall k :: k != key && k in c ==> r.cache[k] == c[k]
  {
    if Live(c, key, now) then Lookup(Success(c[key].value), c, false)
    else match produce
      case Success(v) => Lookup(produce, c[key := Entry(v, now + ttl)], true)
      case Failure(_) => Lookup(produce, c, true)
  }

  /**
   * Once a miss has stored a produced value, every lookup of the same key within
   * the time-to-live yields that value again, whatever its own producer would yield.
   */
  lemma ReuseWithinTtl<T>(c: Cache<T>, key: string, t0: int, t1: int, ttl: nat, p0: Result<T>, p1: Result<T>)
    requires !Live(c, key, t0) && p0.Success?
    requires t0 <= t1 < t0 + ttl
    ensures Get(Get(c, key, t0, ttl, p0).cache, key, t1, ttl, p1).value == p0
    ensures !Get(Get(c, key, t0, ttl, p0).cache, key, t1, ttl, p1).produced
  {
    var first := Get(c, key, t0, ttl, p0);
    assert first.cache[key] == Entry(p0.value, t0 + ttl);
  }
}

=== FILE: wrappers.dfy ===
/** Failure-carrying wrappers shared by every module of the gateway model. */
module Wrappers {

  /** A value that may be absent: JavaScript's `undefined` / `null`. */
  datatype Option<+T> = None | Some(value: T) {

    /** The wrapped value, or `default` when absent (JavaScript's `x ?? default`). */
    function GetOr(default: T): T {
      match this
      case Some(v) => v
      case None => default
    }
  }

  /** The outcome of a call that may throw: `Failure` carries the error message. */
  datatype Result<+R> = Success(value: R) | Failure(error: string) {

    predicate IsFailure() {
      Failure?
    }

    function PropagateFailure<U>(): Result<U>
      requires Failure?
    {
      Failure(error)
    }

    function Extract(): R
      requires Success?
    {
      value
    }
  }
}
